=== FILE: README.md ===
# ChitChat chat and friends services in Dafny

This project models the domain core of the ChitChat backend, a Spring Boot
chat server. Two services hold the behaviour:

- **ChatService** manages rooms, participant rows and messages. Access to a
  room means having an active participant row in it. Adding and removing
  participants is for the room's ADMIN only, and removal is soft: the row's
  active flag is cleared. Messages are read page by page, newest first.
- **FriendsService** keeps friend requests and friendships as directed
  contact rows. A request is one PENDING row from sender to recipient.
  Accepting it makes the row ACCEPTED and adds the reciprocal ACCEPTED row.
  Rejecting it deletes the row. Removing a friend deletes the rows in both
  directions.

The repository queries these services use (the message queries and the
contact lookups) are pure functions over sequences of rows. Each WHERE clause
is a filter, ORDER BY is a stable insertion sort, and a page request is an
offset/limit slice.

Both services are transactional. Every operation here is a pure function that
returns either the new store or an error. An error carries no store, so the
caller keeps the store it had, which is what a rollback gives.

Layout, one module per file:

| file | module | models |
|---|---|---|
| Wrappers.dfy | Wrappers | `Option`, `Result`, and `Lookup` (no row, one row, several rows) for single-row queries |
| Seqs.dfy | Seqs | filtering, offset/limit paging and page counts, with the lemmas about them |
| Domain.dfy | Domain | users, rooms, participant rows, messages, contact rows, the error kinds, lookups of users |
| MessageRepository.dfy | MessageRepository | the five message queries |
| UserContactRepository.dfy | UserContactRepository | the five contact lookups, the primary-key lookup, the uniqueness invariants |
| ChatService.dfy | ChatService | room creation, access and admin checks, messages, room details and room lists, adding and removing participants |
| FriendsService.dfy | FriendsService | friend requests, friendships, and the invariants the writes keep or break |

Modelling decisions:

- Identifiers are naturals. A new record gets an identifier larger than every
  identifier in use (`FreshId`), which stands in for the store's UUID
  generator.
- A lookup declared to return at most one row (`Optional<...>`) fails when
  several rows match. Spring Data then throws
  `IncorrectResultSizeDataAccessException`. The model returns the error
  `NonUniqueResult` in that case. This is how the duplicate rows below become
  visible.
- The source's exceptions map to the `Error` datatype. `UnauthorizedException`
  becomes `Unauthorized` and `ResourceNotFoundException` becomes `NotFound`.
  The duplicate participant in `addParticipant` and the duplicate contact in
  `sendFriendRequest` become `Conflict`. In accept and reject, the two
  `IllegalStateException`s become `Forbidden` (the caller is not the
  recipient) and `InvalidState` (the request is not PENDING). A negative page
  index or a page size below one makes `PageRequest.of` throw; that becomes
  `InvalidPage`.
- Saving an entity whose key is already in the table overwrites every row with
  that key (`ReplaceById`). Deleting an entity removes every row with its key
  (`DeleteById`).
- Rows with equal `sentAt` keep table order when sorted. The database may
  return ties in any order, and the model fixes one of those orders.

What the model derives from the code, and what it assumes:

- Each `roomParticipantRepository.save` of a new `RoomParticipant`
  (ChatService.java lines 76, 86 and 213) is taken to insert a new row. The
  `RoomParticipant` entity and its key are not part of this model. If the
  entity had a composite key of room and user, these saves would merge rows
  instead, and the duplicate-row results below would not arise.
- Under that assumption, `createRoom` saves one MEMBER row for each occurrence
  of an id in `participantIds` (ChatService.java:80-87). A repeated id then
  gets two active rows, and that user's access lookups fail
  (`CreateRoomDuplicateLocksOut`).
- Under the same assumption, adding a user, removing them and adding them
  again leaves one more row each time (`AddThenRemove`).
- `createRoom` returns the saved room as `fromChatRoom` builds it
  (ChatService.java:92). Unlike `getUserRooms` (ChatService.java:51), it
  sets no participant count.
- The access check is "the single-row lookup finds a row"
  (ChatService.java:185-187). It agrees with "an active row exists" unless a
  user has two active rows, and then it fails (`AccessWithOneActiveRow`).
- In accept and reject, "not the recipient" and "not PENDING" are the same
  Java exception class with different messages. The model keeps them apart as
  `Forbidden` and `InvalidState`.
- The corrected `Accept`, not `AcceptAsWritten`, is the one the friendship
  lemmas are about; see "Findings". `AcceptAsWrittenMakesFriends` states that
  the code as written also makes the two users friends.

## Model

| member | source | states |
|---|---|---|
| `ChatService.HasUserAccessToRoom` | src/main/java/com/chitchat/backend/service/ChatService.java:185-187 | Access is granted exactly when the user has one active row in the room. It is refused exactly when the user has no active row. The check fails with NonUniqueResult exactly when the user has two or more active rows. |
| `ChatService.AccessWithOneActiveRow` | src/main/java/com/chitchat/backend/service/ChatService.java:185-187 | If no user has two active rows in a room, the access check never fails and answers "has an active row". |
| `ChatService.RequireAdmin` | src/main/java/com/chitchat/backend/service/ChatService.java:196-201 | The admin guard passes exactly when the actor's one active row is ADMIN. It gives Unauthorized when the actor has no active row or has a non-ADMIN one. |
| `ChatService.CreateRoom` | src/main/java/com/chitchat/backend/service/ChatService.java:60-93 | The room is appended with a key no room, participant row or message uses. The creator gets an active ADMIN row. Every requested id other than the creator's gets an active MEMBER row. Every appended row belongs to the new room. Rows of the new room are active, ADMIN exactly for the creator, and each belongs to the creator or a requested id. Earlier rows and messages are unchanged. |
| `ChatService.CreateRoomRowCount` | src/main/java/com/chitchat/backend/service/ChatService.java:71-88 | In the new room, the creator has exactly one active row. Any other user has one active row per occurrence in the request, so duplicates do not collapse. |
| `ChatService.CreateRoomDuplicateLocksOut` | src/main/java/com/chitchat/backend/service/ChatService.java:79-88 | Assuming each save inserts a new row: an id requested twice gets two active rows. That user's access check and sendMessage then fail with NonUniqueResult. |
| `ChatService.CreateRoomOneActiveRowIff` | src/main/java/com/chitchat/backend/service/ChatService.java:79-88 | createRoom keeps "at most one active row per user and room" if and only if no non-creator id is repeated in the request. |
| `ChatService.SendMessage` | src/main/java/com/chitchat/backend/service/ChatService.java:98-123 | Unauthorized exactly when the sender has no active row. NotFound exactly when the sender has one active row but no user record, and then nothing is stored. On success one active message with the given fields and a fresh id is appended, and nothing else changes. The returned view carries the sender's record. |
| `ChatService.SendMessageVisible` | src/main/java/com/chitchat/backend/service/ChatService.java:106-112 | A sent message is among the room's newest-first messages, and the room's message count grows by one. |
| `ChatService.GetRoomMessages` | src/main/java/com/chitchat/backend/service/ChatService.java:128-148 | Unauthorized exactly for a non-participant. InvalidPage for a negative page or a size below one. NonUniqueResult exactly when the user has two or more active rows. It succeeds exactly when the user has one active row and the page and size are valid. On success the page holds, in order, the slice `page` of `size` of the room's active messages newest first. Each entry carries the sender's record, or none when the sender does not resolve, and that is not an error. The total is the count query's result, and the page count is that total divided by `size`, rounded up. |
| `ChatService.RoomMessagesPageSorted` | src/main/java/com/chitchat/backend/service/ChatService.java:136-137 | Sent times never increase along a returned page. |
| `ChatService.GetRoomDetails` | src/main/java/com/chitchat/backend/service/ChatService.java:153-180 | The access check comes first: a non-participant gets Unauthorized even for a missing room. A participant gets NotFound for a missing room. It succeeds exactly when the user has one active row and the room exists. On success the participant list holds exactly the resolvable users with an active row in the room, and the count is the number of active rows whose user resolves. |
| `ChatService.RoomDetailsCountAgrees` | src/main/java/com/chitchat/backend/service/ChatService.java:167-177 | When every active participant resolves, the details' count equals the room's count of active rows. |
| `ChatService.ActiveParticipantsOfRoom` | src/main/java/com/chitchat/backend/service/ChatService.java:51 | Exactly the room's active rows, each as often as stored. |
| `ChatService.CountParticipantsByRoomId` | src/main/java/com/chitchat/backend/service/ChatService.java:51 | The room's count of active rows is zero exactly when the room has no active row, and it never exceeds the table size. |
| `ChatService.CountParticipantsAfterAppend` | src/main/java/com/chitchat/backend/service/ChatService.java:51 | Storing one more participant row raises a room's count by one exactly when the row is active and in that room. |
| `ChatService.GetUserRooms` | src/main/java/com/chitchat/backend/service/ChatService.java:43-55 | A room is listed exactly when it exists and the user has an active row in it. It appears as often as it does in the room table. Each listed room carries its count of active rows. |
| `ChatService.AddedUserSeesRoom` | src/main/java/com/chitchat/backend/service/ChatService.java:192-216 | After a successful add to an existing room, the added user's room list contains that room. |
| `ChatService.AddParticipant` | src/main/java/com/chitchat/backend/service/ChatService.java:192-216 | Unauthorized exactly when the admin guard refuses. Conflict when the target already has one active row. NonUniqueResult exactly when the actor has two or more active rows, or the actor is admin and the target has two or more. Success exactly when the actor is admin and the target has no active row. Success appends one active MEMBER row, and rooms and messages are unchanged. |
| `ChatService.AddParticipantKeepsOneActiveRow` | src/main/java/com/chitchat/backend/service/ChatService.java:203-213 | addParticipant keeps "at most one active row per user and room". |
| `ChatService.RemoveParticipant` | src/main/java/com/chitchat/backend/service/ChatService.java:221-239 | Unauthorized exactly when the admin guard refuses. NotFound exactly when the target has no active row. NonUniqueResult exactly when the actor has two or more active rows, or the actor is admin and the target has two or more. Success exactly when the actor is admin and the target has one active row. Success clears the active flag of one of the target's active rows and changes nothing else. Afterwards the target has no active row. |
| `ChatService.AddParticipantCount` | src/main/java/com/chitchat/backend/service/ChatService.java:208-213 | A successful add raises the room's count of active rows by one and leaves every other room's count unchanged. |
| `ChatService.RemoveParticipantKeepsOneActiveRow` | src/main/java/com/chitchat/backend/service/ChatService.java:232-236 | removeParticipant keeps "at most one active row per user and room". |
| `ChatService.RemoveParticipantCount` | src/main/java/com/chitchat/backend/service/ChatService.java:232-236 | A successful removal lowers the room's count of active rows by one and leaves every other room's count unchanged. |
| `ChatService.AddThenRemove` | src/main/java/com/chitchat/backend/service/ChatService.java:192-239 | Assuming each save inserts a new row: adding a user and then removing them with the same admin leaves the table with one more row for that user, inactive, and every earlier row as it was. |
| `ChatService.RemoveLastAdmin` | src/main/java/com/chitchat/backend/service/ChatService.java:221-239 | The only admin can remove itself. Afterwards no active row of the room is ADMIN, and every later addParticipant fails. |
| `ChatService.TeamCreated` | src/main/java/com/chitchat/backend/service/ChatService.java:60-123 | Concrete case: user 1 creates "Team" with user 2 in an empty store. User 1 is the admin, user 2 has exactly one MEMBER row, the room counts two participants, and user 3 gets Unauthorized when sending. |
| `ChatService.FirstMessageInNewRoom` | src/main/java/com/chitchat/backend/service/ChatService.java:60-148 | In a room just created, the creator's first message succeeds. A member listed once in the request then reads exactly that message on page 0, with the creator's record as its sender. |
| `ChatService.TeamFirstMessage` | src/main/java/com/chitchat/backend/service/ChatService.java:98-148 | Concrete case: in that room user 1's message "hello" is stored. User 2's page 0 then holds just that message, with user 1's profile as its sender. |
| `MessageRepository.SortBySentAt` | src/main/java/com/chitchat/backend/repository/MessageRepository.java:16 | The result is sorted by sent time in the requested direction and is a permutation of the input. |
| `MessageRepository.NewestFirst` | src/main/java/com/chitchat/backend/repository/MessageRepository.java:16 | The room's active messages, each as often as stored, with sent times never increasing. |
| `MessageRepository.FindByRoomIdOrderBySentAtDesc` | src/main/java/com/chitchat/backend/repository/MessageRepository.java:16-17 | The page is the offset/limit slice of the newest-first list. It holds at most `size` messages, all active and in the room, sorted newest first. Its total is the count query's result. The page count is that total divided by `size`, rounded up: the pages hold every message and none of them is empty. |
| `MessageRepository.AllPagesOfRoom` | src/main/java/com/chitchat/backend/repository/MessageRepository.java:16-17 | Concatenating all pages (as many as the first page reports) gives a newest-first list holding each active message of the room exactly once. |
| `MessageRepository.CountMessagesByRoomId` | src/main/java/com/chitchat/backend/repository/MessageRepository.java:28-29 | The count is zero exactly when the room has no active message, and it never exceeds the table size. |
| `MessageRepository.CountAfterInsert` | src/main/java/com/chitchat/backend/repository/MessageRepository.java:28-29 | Storing a message raises the room's count by one exactly when that message is active and in the room. |
| `MessageRepository.SearchMessagesInRoom` | src/main/java/com/chitchat/backend/repository/MessageRepository.java:19-20 | Exactly the room's active messages whose content contains the keyword, each as often as stored. |
| `MessageRepository.FindBySenderIdAndIsActiveTrue` | src/main/java/com/chitchat/backend/repository/MessageRepository.java:22-23 | Exactly the sender's active messages in any room, each as often as stored. |
| `MessageRepository.FindRecentMessages` | src/main/java/com/chitchat/backend/repository/MessageRepository.java:25-26 | Exactly the room's active messages sent at or after `since`, each as often as stored, oldest first. |
| `UserContactRepository.FindFriendsByUserId` | src/main/java/com/chitchat/backend/repository/UserContactRepository.java:15-16 | Exactly the active ACCEPTED rows going out from the user, each as often as stored. |
| `UserContactRepository.FindPendingRequestsByUserId` | src/main/java/com/chitchat/backend/repository/UserContactRepository.java:18-19 | Exactly the active PENDING rows addressed to the user, selected by recipient. |
| `UserContactRepository.FindContactsByUserId` | src/main/java/com/chitchat/backend/repository/UserContactRepository.java:21-22 | Exactly the active rows going out from the user, of any status. |
| `UserContactRepository.FindByUserIdAndFriendId` | src/main/java/com/chitchat/backend/repository/UserContactRepository.java:24 | With no status or active filter: no row when the ordered pair has none, the pair's only row when it has one, and a failure exactly when it has two or more. |
| `UserContactRepository.UniquePairLookup` | src/main/java/com/chitchat/backend/repository/UserContactRepository.java:24 | With at most one row per ordered pair, the pair lookup never fails. |
| `UserContactRepository.FindActiveContact` | src/main/java/com/chitchat/backend/repository/UserContactRepository.java:26-27 | No row exactly when the pair has no active row. A failure (NonUniqueResult) exactly when the pair has two or more active rows, however many inactive rows it has. Otherwise it gives the pair's only active row. |
| `UserContactRepository.ActiveContactAgrees` | src/main/java/com/chitchat/backend/repository/UserContactRepository.java:24-27 | When the pair lookup does not fail, findActiveContact gives the pair's row if it is active and nothing otherwise. |
| `UserContactRepository.FindById` | src/main/java/com/chitchat/backend/service/FriendsService.java:109-110 | The primary-key lookup finds a row with that key, and finds nothing exactly when no row has it. There is no active filter. |
| `FriendsService.GetFriends` | src/main/java/com/chitchat/backend/service/FriendsService.java:34-49 | A user is listed exactly when it resolves and an active ACCEPTED row goes from the caller to it. The list has one entry per such row whose friend resolves. |
| `FriendsService.GetFriendRequests` | src/main/java/com/chitchat/backend/service/FriendsService.java:79-101 | Exactly one view per active PENDING row addressed to the caller whose sender resolves, so the list is as long as the number of such rows. The view has the row's id, the sender as `senderId`, the caller as `receiverId`, PENDING, and the sender's record. |
| `FriendsService.SendFriendRequest` | src/main/java/com/chitchat/backend/service/FriendsService.java:54-74 | NotFound exactly when no user has the e-mail. Conflict or NonUniqueResult exactly when rows already exist for sender→recipient, of any status or active flag; the reverse direction is not checked. On success exactly one active PENDING row sender→recipient with a fresh key is appended, and every earlier row is unchanged. |
| `FriendsService.SentRequestIsListed` | src/main/java/com/chitchat/backend/service/FriendsService.java:54-101 | After a successful request whose sender is on record, the recipient's getFriendRequests lists the new row with the sender's record. |
| `FriendsService.SendKeepsInvariants` | src/main/java/com/chitchat/backend/service/FriendsService.java:61-72 | sendFriendRequest keeps unique keys and at most one row per ordered pair. |
| `FriendsService.SelfRequest` | src/main/java/com/chitchat/backend/service/FriendsService.java:54-129 | A request from user 7 to itself is stored as one PENDING row 7→7. The accept as written then leaves two ACCEPTED rows 7→7: the request row and a second, appended row. |
| `FriendsService.SelfListedTwice` | src/main/java/com/chitchat/backend/service/FriendsService.java:34-49 | That table breaks "at most one row per ordered pair", and getFriends lists user 7 twice. |
| `FriendsService.SelfRequestAccepted` | src/main/java/com/chitchat/backend/service/FriendsService.java:106-129 | With the corrected accept, the self-request becomes one ACCEPTED row 7→7, and getFriends lists user 7 once. |
| `FriendsService.RequestGuard` | src/main/java/com/chitchat/backend/service/FriendsService.java:109-118 | The checks come in the source's order: NotFound exactly when no row has the key, then Forbidden when the caller is not the recipient, then InvalidState when the row is not PENDING. It succeeds exactly when the row exists, is addressed to the caller and is PENDING, and then gives the caller's PENDING request. |
| `FriendsService.AcceptAsWritten` | src/main/java/com/chitchat/backend/service/FriendsService.java:106-132 | It fails exactly as the guard does. On success the request row is saved as ACCEPTED and a new active ACCEPTED row acceptor→sender with a fresh key is appended. |
| `FriendsService.AcceptAsWrittenUniqueIff` | src/main/java/com/chitchat/backend/service/FriendsService.java:121-129 | Starting from unique keys and pairs, the accept as written keeps one row per ordered pair if and only if no row acceptor→sender existed before. |
| `FriendsService.AcceptAsWrittenDuplicatesPair` | src/main/java/com/chitchat/backend/service/FriendsService.java:121-129 | With crossed requests 1→2 and 2→1, accepting the first leaves two rows for 2→1. removeFriend(1, 2) and a new request from 2 to 1 then both fail with NonUniqueResult. |
| `FriendsService.CrossedRequestsValid` | src/main/java/com/chitchat/backend/service/FriendsService.java:61-64 | Crossed requests between two users satisfy both uniqueness invariants, which the one-direction duplicate check allows. |
| `FriendsService.Accept` | src/main/java/com/chitchat/backend/service/FriendsService.java:106-132 | It fails exactly as the guard does, or with NonUniqueResult exactly when the reciprocal lookup finds two or more rows. It succeeds in every other case. On success the table grows by at most one row. The request row is ACCEPTED, and an active ACCEPTED row acceptor→sender exists. Every row other than these two is unchanged. With no row for acceptor→sender, that row is appended with a fresh key. With one such row, it is saved over that row. |
| `FriendsService.SaveReciprocal` | src/main/java/com/chitchat/backend/service/FriendsService.java:124-129 | Saving the reciprocal row fails exactly when the pair has two or more rows. Otherwise the table holds the active ACCEPTED row under the pair row's key or a fresh key, and every row with another key is unchanged. With no pair row the new row is appended; with one, it replaces that row. |
| `FriendsService.AcceptSucceeds` | src/main/java/com/chitchat/backend/service/FriendsService.java:106-132 | With unique keys and at most one row per ordered pair, the corrected accept succeeds for every request the guard lets through. |
| `FriendsService.AcceptKeepsInvariants` | src/main/java/com/chitchat/backend/service/FriendsService.java:121-129 | The corrected accept keeps unique keys and at most one row per ordered pair. |
| `FriendsService.AcceptMakesFriends` | src/main/java/com/chitchat/backend/service/FriendsService.java:121-129 | After the corrected accept of an active request between two users on record, each lists the other among its friends. |
| `FriendsService.AcceptAsWrittenMakesFriends` | src/main/java/com/chitchat/backend/service/FriendsService.java:121-129 | After the accept as written of an active request between two users on record, each lists the other among its friends. |
| `FriendsService.RejectFriendRequest` | src/main/java/com/chitchat/backend/service/FriendsService.java:137-156 | It fails exactly as the guard does. On success the rows kept are exactly those without the request's key. |
| `FriendsService.RejectKeepsInvariants` | src/main/java/com/chitchat/backend/service/FriendsService.java:152-153 | rejectFriendRequest keeps both uniqueness invariants. |
| `FriendsService.RejectThenSend` | src/main/java/com/chitchat/backend/service/FriendsService.java:140-153 | With one row per ordered pair, after a rejection the same sender's new request to the same recipient passes the duplicate check and succeeds. |
| `FriendsService.RemoveFriend` | src/main/java/com/chitchat/backend/service/FriendsService.java:161-172 | It fails, with NonUniqueResult, exactly when either direction has two or more rows. Otherwise it keeps exactly the rows whose key is not the key of a row between the two users, each as often as it occurred. |
| `FriendsService.RemoveFriendKeepsInvariants` | src/main/java/com/chitchat/backend/service/FriendsService.java:165-169 | With unique keys and pairs, removeFriend never fails and keeps both invariants. |
| `FriendsService.RemoveFriendExactly` | src/main/java/com/chitchat/backend/service/FriendsService.java:165-169 | With unique keys, removeFriend deletes exactly the rows between the two users, of any status, and keeps every other row. |
| `FriendsService.RemoveFriendIdempotent` | src/main/java/com/chitchat/backend/service/FriendsService.java:165-169 | Afterwards no row joins the two users, and a second call succeeds and changes nothing. |
| `Domain.ResolveUsers` | src/main/java/com/chitchat/backend/service/ChatService.java:168-174 | A user is in the result exactly when its id is in the list and resolves to it. There is one entry per id that resolves, so a user appears as often as its id appears in the list. |
| `Seqs.PageSlice` | src/main/java/com/chitchat/backend/service/ChatService.java:136-137 | The page is empty once the offset passes the end. Otherwise it is the min(size, remaining) elements starting at the offset, in order. |
| `Seqs.TotalPages` | src/main/java/com/chitchat/backend/service/ChatService.java:136-137 | Enough pages to hold every element, and no page that would be empty. |

## Left out

- The controllers (chat, friends, users), which only route HTTP requests and read the principal, and the Gemini controller and configuration, which call an external AI service.
- DTO formatting (`fromChatRoom`, `fromMessage`, `fromUser`, the request map's string status), logging, and dependency injection.
- The user, room and participant repositories are not part of this model. Users are a sequence searched front to back. The room lookup is by key. `findByRoomIdAndUserIdAndIsActiveTrue` and `findByRoomIdAndIsActiveTrue` are read from their method names. `findRoomsByUserId` (ChatService.java:46) belongs to the room repository and needs a query whose text is not shown; the model assumes it lists the rooms where the user has an active row.
- ChatService.CountParticipantsByRoomId: assumed to count only the active rows of the room. A count derived from the method name alone would count every row with that room id, including the rows that removeParticipant deactivates (ChatService.java:226-227). RemoveParticipantCount, RoomDetailsCountAgrees, CountParticipantsAfterAppend, AddParticipantCount and the participantCount clause of GetUserRooms rest on this assumption.
- The entity classes are not part of this model. New participant, message and contact rows are taken to start active. A participant row is a plain row, not merged with others by a composite key.
- Timestamps: `sentAt` is a natural number the caller supplies, and the contact rows' `createdAt` is not modelled.
- Transaction isolation and concurrent accept/reject races. Each call is one atomic step.
- JPQL `LIKE` wildcards inside the keyword. The search is plain substring containment.
- Field validation (empty room names or message contents). The service code performs none; the controllers apply `@Valid` to request bodies whose constraints are not shown (ChatController.java:38 and :50, FriendsController.java:38).
- `ChatService.GetRoomMessages`: page and size are unbounded integers. In the source they are 32-bit `int`s, and the persistence layer, which is not part of this model, rejects or truncates an offset `page * size` above 2^31 - 1. The model returns an empty page there, for example for page 100000000 and size 100.
- `ChatService.GetUserRooms`: lists rooms in table order. The room repository's order is not specified.
- `MessageRepository.SortBySentAt`: puts messages with equal timestamps in table order, which is one of the orders the database may return.
- `MessageRepository.AllPagesOfRoom`: "each message exactly once" assumes every page query orders messages with equal timestamps the same way. Each page is a separate LIMIT/OFFSET query, and the database need not keep one tie order across them, so a message could then appear on two pages or on none.
- `ChatService.CreateRoom`: returns the room without a participant count, as the code does.

## Findings

| source | as written | input that shows it | evidently intended | confidence | as-written member | corrected member |
|---|---|---|---|---|---|---|
| src/main/java/com/chitchat/backend/service/FriendsService.java:125-129 | acceptFriendRequest always inserts a new reciprocal ACCEPTED row, without looking for an existing row for acceptor→sender. sendFriendRequest checks only the forward direction, so such a row can exist. | Rows 1→2 PENDING and 2→1 PENDING; user 2 accepts the request 1→2. The pair 2→1 then has two rows, the old PENDING one and the new ACCEPTED one. After that `findByUserIdAndFriendId(2, 1)` matches two rows, so removeFriend and a new request for that pair throw (`FriendsService.AcceptAsWrittenDuplicatesPair`; in general `FriendsService.AcceptAsWrittenUniqueIff`). A request from user 7 to itself, accepted, gives two ACCEPTED rows 7→7, and getFriends lists user 7 twice (`FriendsService.SelfRequest`, `FriendsService.SelfListedTwice`). | At most one row per ordered pair, as the `Optional` result of `findByUserIdAndFriendId` assumes: the reciprocal row is saved over the pair's existing row, and inserted only when there is none. | high; not executed | `FriendsService.AcceptAsWritten` | `FriendsService.Accept` |

=== FILE: ChatService.dfy ===
/** The chat service: room creation, membership management guarded by an
    access check and an admin check, sending messages and reading them page
    by page. Every operation is one transaction: it returns the new store,
    or an error and no store, so that the caller's store is left as it was.

    The participant queries below stand for queries of the participant and
    room repositories, which are not part of this model. The two active-row
    lookups are read off their method names; the user's room list and the
    room's participant count are assumed to look at active rows only. */
module ChatService {
  import opened Wrappers
  import opened Seqs
  import opened Domain
  import opened MessageRepository

  datatype ChatStore = ChatStore(rooms: seq<ChatRoom>, participants: seq<Participant>, messages: seq<Message>)

  /** A message as the service returns it, with the sender's profile when the
      sender still resolves to a user. */
  datatype MessageView = MessageView(message: Message, sender: Option<User>)

  /** A room with its resolved active participants and their number. */
  datatype RoomDetails = RoomDetails(room: ChatRoom, participants: seq<User>, participantCount: nat)

  /** A room as listed for one user, with its participant count. */
  datatype RoomSummary = RoomSummary(room: ChatRoom, participantCount: nat)

  // ---------------------------------------------------------------- queries

  predicate IsActiveRowOf(p: Participant, roomId: RoomId, userId: UserId)
  {
    p.roomId == roomId && p.userId == userId && p.active
  }

  /** The WHERE clause of findByRoomIdAndUserIdAndIsActiveTrue. */
  function RowOf(roomId: RoomId, userId: UserId): Participant -> bool
  {
    (p: Participant) => IsActiveRowOf(p, roomId, userId)
  }

  /** The rows findByRoomIdAndUserIdAndIsActiveTrue matches. */
  function ActiveRows(ps: seq<Participant>, roomId: RoomId, userId: UserId): (r: seq<Participant>)
    ensures forall p :: p in r <==> p in ps && IsActiveRowOf(p, roomId, userId)
  {
    Filter(ps, RowOf(roomId, userId))
  }

  /** findByRoomIdAndUserIdAndIsActiveTrue: the user's active row in the
      room, failing when there are several. */
  function FindActiveParticipant(ps: seq<Participant>, roomId: RoomId, userId: UserId): (r: Lookup<Participant>)
    ensures r.Absent? <==> forall p :: p in ps ==> !IsActiveRowOf(p, roomId, userId)
    ensures r.Unique? ==> r.row in ps && IsActiveRowOf(r.row, roomId, userId)
    ensures r.Ambiguous? <==> |ActiveRows(ps, roomId, userId)| >= 2
  {
    var rows := ActiveRows(ps, roomId, userId);
    assert |rows| > 0 ==> rows[0] in rows;
    Single(rows)
  }

  /** The WHERE clause of findByRoomIdAndIsActiveTrue. */
  function InRoom(roomId: RoomId): Participant -> bool
  {
    (p: Participant) => p.roomId == roomId && p.active
  }

  /** findByRoomIdAndIsActiveTrue: the room's active rows, in table order,
      each as often as stored. */
  function ActiveParticipantsOfRoom(ps: seq<Participant>, roomId: RoomId): (r: seq<Participant>)
    ensures forall p :: p in r <==> p in ps && p.roomId == roomId && p.active
    ensures forall p :: multiset(r)[p] == if p.roomId == roomId && p.active then multiset(ps)[p] else 0
  {
    FilterCounts(ps, InRoom(roomId));
    Filter(ps, InRoom(roomId))
  }

  /** The user id of each row, in order. */
  function UserIdsOf(ps: seq<Participant>): (r: seq<UserId>)
    ensures |r| == |ps|
    ensures forall i :: 0 <= i < |ps| ==> r[i] == ps[i].userId
    ensures forall id :: id in r <==> exists p :: p in ps && p.userId == id
  {
    Map(ps, (p: Participant) => p.userId)
  }

  /** The room repository's lookup by primary key. */
  function FindRoomById(rooms: seq<ChatRoom>, id: RoomId): (r: Option<ChatRoom>)
    ensures r.Some? ==> r.value in rooms && r.value.id == id
    ensures r.None? <==> forall room :: room in rooms ==> room.id != id
  {
    FindFirst(rooms, (room: ChatRoom) => room.id == id)
  }

  /** Whether the user has some active row in the room. */
  predicate IsActiveMember(ps: seq<Participant>, roomId: RoomId, userId: UserId)
  {
    exists p :: p in ps && IsActiveRowOf(p, roomId, userId)
  }

  /** What the admin guard accepts: the user's one active row in the room
      has role ADMIN. */
  predicate IsAdmin(ps: seq<Participant>, roomId: RoomId, userId: UserId)
  {
    var rows := ActiveRows(ps, roomId, userId);
    |rows| == 1 && rows[0].role == Admin
  }

  /** No user holds two active rows in one room. */
  ghost predicate OneActiveRowPerMember(ps: seq<Participant>)
  {
    forall roomId, userId :: |ActiveRows(ps, roomId, userId)| <= 1
  }

  // ----------------------------------------------------------------- guards

  /** hasUserAccessToRoom: whether the user's active-row lookup finds a row;
      a lookup matching several rows fails instead of answering. */
  function HasUserAccessToRoom(ps: seq<Participant>, userId: UserId, roomId: RoomId): (r: Result<bool, Error>)
    ensures r == Success(true) <==> |ActiveRows(ps, roomId, userId)| == 1
    ensures r == Success(false) <==> !IsActiveMember(ps, roomId, userId)
    ensures r == Failure(NonUniqueResult) <==> |ActiveRows(ps, roomId, userId)| >= 2
    ensures r.Success? || r == Failure(NonUniqueResult)
  {
    match FindActiveParticipant(ps, roomId, userId)
    case Absent => Success(false)
    case Unique(_) => Success(true)
    case Ambiguous => Failure(NonUniqueResult)
  }

  /** The admin check shared by adding and removing participants: no error
      exactly when the acting user's one active row in the room is ADMIN. */
  function RequireAdmin(ps: seq<Participant>, roomId: RoomId, userId: UserId): (r: Option<Error>)
    ensures r.None? <==> IsAdmin(ps, roomId, userId)
    ensures r == Some(NonUniqueResult) <==> |ActiveRows(ps, roomId, userId)| >= 2
    ensures r == Some(Unauthorized) <==>
      (!IsActiveMember(ps, roomId, userId) ||
       (|ActiveRows(ps, roomId, userId)| == 1 && ActiveRows(ps, roomId, userId)[0].role != Admin))
    ensures r.None? || r == Some(Unauthorized) || r == Some(NonUniqueResult)
  {
    match FindActiveParticipant(ps, roomId, userId)
    case Absent => Some(Unauthorized)
    case Ambiguous => Some(NonUniqueResult)
    case Unique(p) => if p.role != Admin then Some(Unauthorized) else None
  }

  /** Under one active row per member, access is exactly having an active
      row, and the check never fails. */
  lemma AccessWithOneActiveRow(ps: seq<Participant>, userId: UserId, roomId: RoomId)
    requires OneActiveRowPerMember(ps)
    ensures HasUserAccessToRoom(ps, userId, roomId) == Success(IsActiveMember(ps, roomId, userId))
  {
    assert |ActiveRows(ps, roomId, userId)| <= 1;
    if IsActiveMember(ps, roomId, userId) {
      var p :| p in ps && IsActiveRowOf(p, roomId, userId);
      assert p in ActiveRows(ps, roomId, userId);
    }
  }

  // ---------------------------------------------------------------- createRoom

  /** An identifier that no room and no participant or message row refers to. */
  function NewRoomId(s: ChatStore): (id: RoomId)
    ensures forall room :: room in s.rooms ==> room.id != id
    ensures forall p :: p in s.participants ==> p.roomId != id
    ensures forall m :: m in s.messages ==> m.roomId != id
  {
    var a := FreshId(s.rooms, (room: ChatRoom) => room.id);
    var b := FreshId(s.participants, (p: Participant) => p.roomId);
    var c := FreshId(s.messages, (m: Message) => m.roomId);
    if a >= b && a >= c then a else if b >= c then b else c
  }

  /** One MEMBER row per occurrence of a non-creator id, in request order;
      a repeated id gets a row for each occurrence. */
  function MemberRows(roomId: RoomId, creatorId: UserId, ids: seq<UserId>): (r: seq<Participant>)
    ensures forall p :: p in r ==> p.roomId == roomId && p.role == Member && p.active && p.userId != creatorId && p.userId in ids
    ensures forall u :: u in ids && u != creatorId ==> Participant(roomId, u, Member, true) in r
    decreases |ids|
  {
    if |ids| == 0 then []
    else
      assert ids == [ids[0]] + ids[1..];
      (if ids[0] != creatorId then [Participant(roomId, ids[0], Member, true)] else [])
        + MemberRows(roomId, creatorId, ids[1..])
  }

  /** createRoom: stores the room, an active ADMIN row for the creator, and
      an active MEMBER row for every requested id other than the creator's.
      It has no failure path. */
  function CreateRoom(s: ChatStore, name: string, isGroup: bool, description: Option<string>,
                      creatorId: UserId, participantIds: seq<UserId>): (r: (ChatStore, ChatRoom))
    ensures r.1 == ChatRoom(r.1.id, name, isGroup, creatorId, description)
    ensures forall room :: room in s.rooms ==> room.id != r.1.id
    ensures forall p :: p in s.participants ==> p.roomId != r.1.id
    ensures forall m :: m in s.messages ==> m.roomId != r.1.id
    ensures r.0.rooms == s.rooms + [r.1]
    ensures r.0.messages == s.messages
    ensures |r.0.participants| > |s.participants| && r.0.participants[..|s.participants|] == s.participants
    ensures forall p :: p in r.0.participants[|s.participants|..] ==> p.roomId == r.1.id
    ensures Participant(r.1.id, creatorId, Admin, true) in r.0.participants
    ensures forall u :: u in participantIds && u != creatorId ==> Participant(r.1.id, u, Member, true) in r.0.participants
    ensures forall p :: p in r.0.participants && p.roomId == r.1.id ==>
      && p.active
      && (p.role == Admin <==> p.userId == creatorId)
      && (p.userId == creatorId || p.userId in participantIds)
  {
    var roomId := NewRoomId(s);
    var room := ChatRoom(roomId, name, isGroup, creatorId, description);
    var added := [Participant(roomId, creatorId, Admin, true)] + MemberRows(roomId, creatorId, participantIds);
    var ps := s.participants + added;
    assert ps[..|s.participants|] == s.participants;
    assert ps[|s.participants|..] == added;
    assert forall p :: p in ps ==> p in s.participants || p in added;
    (ChatStore(s.rooms + [room], ps, s.messages), room)
  }

  /** The first requested id contributes its own row, if any, to a user's
      count of MEMBER rows. */
  lemma MemberRowsStep(roomId: RoomId, creatorId: UserId, ids: seq<UserId>, u: UserId)
    requires |ids| > 0
    ensures |ActiveRows(MemberRows(roomId, creatorId, ids), roomId, u)|
         == (if ids[0] != creatorId && ids[0] == u then 1 else 0)
          + |ActiveRows(MemberRows(roomId, creatorId, ids[1..]), roomId, u)|
  {
    var row := Participant(roomId, ids[0], Member, true);
    var rest := MemberRows(roomId, creatorId, ids[1..]);
    if ids[0] != creatorId {
      assert MemberRows(roomId, creatorId, ids) == [row] + rest;
      FilterAppend([row], rest, RowOf(roomId, u));
      FilterSingleton(row, RowOf(roomId, u));
    } else {
      assert MemberRows(roomId, creatorId, ids) == rest;
    }
  }

  /** The new room's MEMBER rows: for each user other than the creator, as
      many as the request lists that user. */
  lemma {:induction false} MemberRowsCount(roomId: RoomId, creatorId: UserId, ids: seq<UserId>, u: UserId)
    ensures |ActiveRows(MemberRows(roomId, creatorId, ids), roomId, u)|
         == if u == creatorId then 0 else multiset(ids)[u]
    decreases |ids|
  {
    if |ids| > 0 {
      MemberRowsStep(roomId, creatorId, ids, u);
      MemberRowsCount(roomId, creatorId, ids[1..], u);
      CountHead(ids, u);
    }
  }

  /** After createRoom every user holds, in the new room, one active row if
      it is the creator and otherwise one per occurrence in the request:
      duplicate ids are not collapsed. */
  lemma CreateRoomRowCount(s: ChatStore, name: string, isGroup: bool, description: Option<string>,
                           creatorId: UserId, participantIds: seq<UserId>, u: UserId)
    ensures var (t, room) := CreateRoom(s, name, isGroup, description, creatorId, participantIds);
      |ActiveRows(t.participants, room.id, u)| == if u == creatorId then 1 else multiset(participantIds)[u]
  {
    var roomId := NewRoomId(s);
    var pred := RowOf(roomId, u);
    var admin := [Participant(roomId, creatorId, Admin, true)];
    var members := MemberRows(roomId, creatorId, participantIds);
    assert s.participants + (admin + members) == (s.participants + admin) + members;
    FilterAppend(s.participants + admin, members, pred);
    FilterAppend(s.participants, admin, pred);
    MemberRowsCount(roomId, creatorId, participantIds, u);
    FilterNone(s.participants, pred);
    FilterSingleton(admin[0], pred);
  }

  /** A requested id listed twice gets two active rows, after which every
      access check for that user in the room fails and the user can no
      longer send messages there. */
  lemma CreateRoomDuplicateLocksOut(s: ChatStore, name: string, isGroup: bool, description: Option<string>,
                                    creatorId: UserId, participantIds: seq<UserId>, u: UserId,
                                    users: seq<User>, content: string, messageType: string, sentAt: nat)
    requires u != creatorId && multiset(participantIds)[u] >= 2
    ensures var (t, room) := CreateRoom(s, name, isGroup, description, creatorId, participantIds);
      && HasUserAccessToRoom(t.participants, u, room.id) == Failure(NonUniqueResult)
      && SendMessage(t, users, room.id, u, content, messageType, sentAt) == Failure(NonUniqueResult)
  {
    CreateRoomRowCount(s, name, isGroup, description, creatorId, participantIds, u);
  }

  /** No id other than the creator's is listed twice. */
  ghost predicate NoRepeatedMember(creatorId: UserId, ids: seq<UserId>)
  {
    forall u :: u != creatorId ==> multiset(ids)[u] <= 1
  }

  /** Starting from one active row per member, createRoom keeps that
      property exactly when no non-creator id is requested twice. */
  lemma CreateRoomOneActiveRowIff(s: ChatStore, name: string, isGroup: bool, description: Option<string>,
                                  creatorId: UserId, participantIds: seq<UserId>)
    requires OneActiveRowPerMember(s.participants)
    ensures var (t, room) := CreateRoom(s, name, isGroup, description, creatorId, participantIds);
      OneActiveRowPerMember(t.participants) <==> NoRepeatedMember(creatorId, participantIds)
  {
    var (t, room) := CreateRoom(s, name, isGroup, description, creatorId, participantIds);
    if OneActiveRowPerMember(t.participants) {
      forall u | u != creatorId ensures multiset(participantIds)[u] <= 1 {
        CreateRoomRowCount(s, name, isGroup, description, creatorId, participantIds, u);
        assert |ActiveRows(t.participants, room.id, u)| <= 1;
      }
    }
    if NoRepeatedMember(creatorId, participantIds) {
      forall roomId, u ensures |ActiveRows(t.participants, roomId, u)| <= 1 {
        if roomId == room.id {
          CreateRoomRowCount(s, name, isGroup, description, creatorId, participantIds, u);
        } else {
          var pred := RowOf(roomId, u);
          var added := t.participants[|s.participants|..];
          assert t.participants == s.participants + added;
          FilterAppend(s.participants, added, pred);
          assert forall p :: p in added ==> p in t.participants;
          FilterNone(added, pred);
          assert |ActiveRows(s.participants, roomId, u)| <= 1;
        }
      }
    }
  }

  // ---------------------------------------------------------------- messages

  function NewMessageId(ms: seq<Message>): (id: MessageId)
    ensures forall m :: m in ms ==> m.id != id
  {
    FreshId(ms, (m: Message) => m.id)
  }

  /** sendMessage: an active participant stores a new active message and gets
      it back with its own profile. A non-participant gets Unauthorized; a
      sender with no user record gets NotFound, and the message stored before
      that lookup is rolled back with the transaction. */
  function SendMessage(s: ChatStore, users: seq<User>, roomId: RoomId, senderId: UserId,
                       content: string, messageType: string, sentAt: nat): (r: Result<(ChatStore, MessageView), Error>)
    ensures r == Failure(Unauthorized) <==> !IsActiveMember(s.participants, roomId, senderId)
    ensures r == Failure(NonUniqueResult) <==> |ActiveRows(s.participants, roomId, senderId)| >= 2
    ensures r == Failure(NotFound) <==>
      |ActiveRows(s.participants, roomId, senderId)| == 1 && FindUserById(users, senderId).None?
    ensures r.Failure? ==> r.error in {Unauthorized, NonUniqueResult, NotFound}
    ensures r.Success? ==>
      var (t, view) := r.value;
      var m := view.message;
      && t.rooms == s.rooms && t.participants == s.participants
      && t.messages == s.messages + [m]
      && (forall x :: x in s.messages ==> x.id != m.id)
      && m.roomId == roomId && m.senderId == senderId && m.content == content
      && m.messageType == messageType && m.sentAt == sentAt && m.active
      && view.sender.Some? && view.sender.value in users && view.sender.value.id == senderId
  {
    match HasUserAccessToRoom(s.participants, senderId, roomId)
    case Failure(e) => Failure(e)
    case Success(access) =>
      if !access then Failure(Unauthorized)
      else
        var m := Message(NewMessageId(s.messages), roomId, senderId, content, messageType, sentAt, true);
        match FindUserById(users, senderId)
        case None => Failure(NotFound)
        case Some(sender) => Success((s.(messages := s.messages + [m]), MessageView(m, Some(sender))))
  }

  /** A sent message is visible to the room: it is among the room's messages
      newest first, and the room's count grows by one. */
  lemma SendMessageVisible(s: ChatStore, users: seq<User>, roomId: RoomId, senderId: UserId,
                           content: string, messageType: string, sentAt: nat)
    requires SendMessage(s, users, roomId, senderId, content, messageType, sentAt).Success?
    ensures var (t, view) := SendMessage(s, users, roomId, senderId, content, messageType, sentAt).value;
      && view.message in NewestFirst(t.messages, roomId)
      && CountMessagesByRoomId(t.messages, roomId) == CountMessagesByRoomId(s.messages, roomId) + 1
  {
    var (t, view) := SendMessage(s, users, roomId, senderId, content, messageType, sentAt).value;
    CountAfterInsert(s.messages, view.message, roomId);
    assert view.message in t.messages;
  }

  function WithSenders(users: seq<User>, ms: seq<Message>): (r: seq<MessageView>)
    ensures |r| == |ms|
    ensures forall i :: 0 <= i < |ms| ==> r[i].message == ms[i] && r[i].sender == FindUserById(users, ms[i].senderId)
  {
    seq(|ms|, i requires 0 <= i < |ms| => MessageView(ms[i], FindUserById(users, ms[i].senderId)))
  }

  /** getRoomMessages: for an active participant, page `page` of `size`
      taken from the room's active messages newest first, each with its
      sender's profile when the sender resolves (an unresolved sender leaves
      the profile absent and is no error). Nothing is written. */
  function GetRoomMessages(s: ChatStore, users: seq<User>, roomId: RoomId, userId: UserId,
                           page: int, size: int): (r: Result<Page<MessageView>, Error>)
    ensures r == Failure(Unauthorized) <==> !IsActiveMember(s.participants, roomId, userId)
    ensures r == Failure(NonUniqueResult) <==> |ActiveRows(s.participants, roomId, userId)| >= 2
    ensures r == Failure(InvalidPage) <==>
      |ActiveRows(s.participants, roomId, userId)| == 1 && (page < 0 || size < 1)
    ensures r.Success? <==> |ActiveRows(s.participants, roomId, userId)| == 1 && page >= 0 && size >= 1
    ensures r.Success? ==>
      var slice := PageSlice(NewestFirst(s.messages, roomId), page, size);
      var c := r.value.content;
      && |c| == |slice|
      && (forall i :: 0 <= i < |c| ==> c[i].message == slice[i])
      && (forall i :: 0 <= i < |c| ==> c[i].sender == FindUserById(users, c[i].message.senderId))
      && r.value.number == page && r.value.size == size
      && r.value.totalElements == CountMessagesByRoomId(s.messages, roomId)
      && r.value.totalPages == TotalPages(r.value.totalElements, size)
  {
    match HasUserAccessToRoom(s.participants, userId, roomId)
    case Failure(e) => Failure(e)
    case Success(access) =>
      if !access then Failure(Unauthorized)
      else if page < 0 || size < 1 then Failure(InvalidPage)
      else
        var p := FindByRoomIdOrderBySentAtDesc(s.messages, roomId, page, size);
        Success(Page(WithSenders(users, p.content), p.number, p.size, p.totalElements, p.totalPages))
  }

  /** A page getRoomMessages returns is newest first: sent times never
      increase along the page. */
  lemma RoomMessagesPageSorted(s: ChatStore, users: seq<User>, roomId: RoomId, userId: UserId, page: int, size: int)
    requires GetRoomMessages(s, users, roomId, userId, page, size).Success?
    ensures var c := GetRoomMessages(s, users, roomId, userId, page, size).value.content;
      forall i, j :: 0 <= i < j < |c| ==> c[i].message.sentAt >= c[j].message.sentAt
  {
    var p := FindByRoomIdOrderBySentAtDesc(s.messages, roomId, page, size);
    var c := GetRoomMessages(s, users, roomId, userId, page, size).value.content;
    assert forall i :: 0 <= i < |c| ==> c[i].message == p.content[i];
    forall i, j | 0 <= i < j < |c| ensures c[i].message.sentAt >= c[j].message.sentAt {
      assert InOrder(p.content[i], p.content[j], Descending);
    }
  }

  // ---------------------------------------------------------------- rooms

  /** getRoomDetails: the access check comes first, so a non-participant
      gets Unauthorized even for a room that does not exist; then NotFound
      for a missing room. The participant list holds the users of the
      room's active rows that resolve, and the count is its length. */
  function GetRoomDetails(s: ChatStore, users: seq<User>, roomId: RoomId, userId: UserId): (r: Result<RoomDetails, Error>)
    ensures r == Failure(Unauthorized) <==> !IsActiveMember(s.participants, roomId, userId)
    ensures r == Failure(NonUniqueResult) <==> |ActiveRows(s.participants, roomId, userId)| >= 2
    ensures r == Failure(NotFound) <==>
      |ActiveRows(s.participants, roomId, userId)| == 1 && FindRoomById(s.rooms, roomId).None?
    ensures r.Success? <==>
      |ActiveRows(s.participants, roomId, userId)| == 1 && FindRoomById(s.rooms, roomId).Some?
    ensures r.Success? ==>
      && r.value.room in s.rooms && r.value.room.id == roomId
      && r.value.participantCount == |r.value.participants|
      && r.value.participantCount
         == |Filter(UserIdsOf(ActiveParticipantsOfRoom(s.participants, roomId)), Resolves(users))|
      && forall u :: u in r.value.participants <==>
           FindUserById(users, u.id) == Some(u) &&
           exists p :: p in s.participants && p.roomId == roomId && p.active && p.userId == u.id
  {
    match HasUserAccessToRoom(s.participants, userId, roomId)
    case Failure(e) => Failure(e)
    case Success(access) =>
      if !access then Failure(Unauthorized)
      else
        match FindRoomById(s.rooms, roomId)
        case None => Failure(NotFound)
        case Some(room) =>
          var members := ResolveUsers(users, UserIdsOf(ActiveParticipantsOfRoom(s.participants, roomId)));
          Success(RoomDetails(room, members, |members|))
  }

  /** When every active participant of the room resolves to a user, the
      details' count is the room's count of active rows, the figure
      getUserRooms reports for the same room. */
  lemma RoomDetailsCountAgrees(s: ChatStore, users: seq<User>, roomId: RoomId, userId: UserId)
    requires GetRoomDetails(s, users, roomId, userId).Success?
    requires forall p :: p in s.participants && p.roomId == roomId && p.active ==> FindUserById(users, p.userId).Some?
    ensures GetRoomDetails(s, users, roomId, userId).value.participantCount
         == CountParticipantsByRoomId(s.participants, roomId)
  {
    var ids := UserIdsOf(ActiveParticipantsOfRoom(s.participants, roomId));
    forall id | id in ids ensures Resolves(users)(id) {
      var p :| p in ActiveParticipantsOfRoom(s.participants, roomId) && p.userId == id;
    }
    FilterAll(ids, Resolves(users));
  }

  /** countParticipantsByRoomId, assumed to count the room's active rows
      only (its query text is not part of this model). */
  function CountParticipantsByRoomId(ps: seq<Participant>, roomId: RoomId): (n: nat)
    ensures n <= |ps|
    ensures n == 0 <==> forall p :: p in ps ==> !(p.roomId == roomId && p.active)
  {
    var rows := ActiveParticipantsOfRoom(ps, roomId);
    assert |rows| > 0 ==> rows[0] in rows;
    |rows|
  }

  /** Storing one more participant row raises the room's count by one
      exactly when that row is active and in the room. */
  lemma CountParticipantsAfterAppend(ps: seq<Participant>, row: Participant, roomId: RoomId)
    ensures CountParticipantsByRoomId(ps + [row], roomId)
         == CountParticipantsByRoomId(ps, roomId) + (if row.roomId == roomId && row.active then 1 else 0)
  {
    FilterAppend(ps, [row], InRoom(roomId));
    FilterSingleton(row, InRoom(roomId));
  }

  /** addParticipant raises the room's count by one and leaves every other
      room's count as it was. */
  lemma AddParticipantCount(s: ChatStore, roomId: RoomId, actorId: UserId, participantId: UserId, other: RoomId)
    requires AddParticipant(s, roomId, actorId, participantId).Success?
    ensures var t := AddParticipant(s, roomId, actorId, participantId).value;
      && CountParticipantsByRoomId(t.participants, roomId) == CountParticipantsByRoomId(s.participants, roomId) + 1
      && (other != roomId ==> CountParticipantsByRoomId(t.participants, other) == CountParticipantsByRoomId(s.participants, other))
  {
    var row := Participant(roomId, participantId, Member, true);
    CountParticipantsAfterAppend(s.participants, row, roomId);
    CountParticipantsAfterAppend(s.participants, row, other);
  }

  /** removeParticipant lowers the room's count by one and leaves every
      other room's count as it was. */
  lemma RemoveParticipantCount(s: ChatStore, roomId: RoomId, actorId: UserId, participantId: UserId, other: RoomId)
    requires RemoveParticipant(s, roomId, actorId, participantId).Success?
    ensures var t := RemoveParticipant(s, roomId, actorId, participantId).value;
      && CountParticipantsByRoomId(t.participants, roomId) == CountParticipantsByRoomId(s.participants, roomId) - 1
      && (other != roomId ==> CountParticipantsByRoomId(t.participants, other) == CountParticipantsByRoomId(s.participants, other))
  {
    var ps := s.participants;
    var t := RemoveParticipant(s, roomId, actorId, participantId).value;
    var i :| 0 <= i < |ps| && IsActiveRowOf(ps[i], roomId, participantId) && t.participants == ps[i := ps[i].(active := false)];
    FilterUpdateCount(ps, InRoom(roomId), i, ps[i].(active := false));
    FilterUpdateCount(ps, InRoom(other), i, ps[i].(active := false));
  }

  /** Whether the user has an active row in the room: the join behind
      findRoomsByUserId. */
  function HasMember(ps: seq<Participant>, userId: UserId): ChatRoom -> bool
  {
    (room: ChatRoom) => IsActiveMember(ps, room.id, userId)
  }

  /** The rooms a list of summaries is about, in order. */
  function RoomsOf(r: seq<RoomSummary>): (rooms: seq<ChatRoom>)
    ensures |rooms| == |r|
    ensures forall i :: 0 <= i < |r| ==> rooms[i] == r[i].room
  {
    seq(|r|, i requires 0 <= i < |r| => r[i].room)
  }

  /** Each room paired with its count of active rows. */
  function Summaries(ps: seq<Participant>, rooms: seq<ChatRoom>): (r: seq<RoomSummary>)
    ensures RoomsOf(r) == rooms
    ensures forall i :: 0 <= i < |r| ==> r[i].participantCount == CountParticipantsByRoomId(ps, r[i].room.id)
  {
    seq(|rooms|, i requires 0 <= i < |rooms| => RoomSummary(rooms[i], CountParticipantsByRoomId(ps, rooms[i].id)))
  }

  /** getUserRooms: every room in which the user has an active row, in
      table order, each with its count of active rows. */
  function GetUserRooms(s: ChatStore, userId: UserId): (r: seq<RoomSummary>)
    ensures |r| <= |s.rooms|
    ensures forall room :: room in RoomsOf(r) <==> room in s.rooms && IsActiveMember(s.participants, room.id, userId)
    ensures forall room :: (multiset(RoomsOf(r))[room] ==
      if IsActiveMember(s.participants, room.id, userId) then multiset(s.rooms)[room] else 0)
    ensures forall i :: 0 <= i < |r| ==> r[i].participantCount == CountParticipantsByRoomId(s.participants, r[i].room.id)
  {
    FilterCounts(s.rooms, HasMember(s.participants, userId));
    Summaries(s.participants, Filter(s.rooms, HasMember(s.participants, userId)))
  }

  /** A user an admin adds to an existing room finds that room among its
      rooms. */
  lemma AddedUserSeesRoom(s: ChatStore, room: ChatRoom, actorId: UserId, participantId: UserId)
    requires room in s.rooms
    requires AddParticipant(s, room.id, actorId, participantId).Success?
    ensures room in RoomsOf(GetUserRooms(AddParticipant(s, room.id, actorId, participantId).value, participantId))
  {
    var t := AddParticipant(s, room.id, actorId, participantId).value;
    var row := t.participants[|s.participants|];
    assert row == Participant(room.id, participantId, Member, true);
    assert row in t.participants && IsActiveRowOf(row, room.id, participantId);
    assert IsActiveMember(t.participants, room.id, participantId);
  }

  // ---------------------------------------------------------------- membership

  /** addParticipant: only the room's admin may add; a user who already has
      an active row is a conflict; otherwise exactly one active MEMBER row is
      appended and nothing else changes. */
  function AddParticipant(s: ChatStore, roomId: RoomId, actorId: UserId, participantId: UserId): (r: Result<ChatStore, Error>)
    ensures r == Failure(Unauthorized) <==> RequireAdmin(s.participants, roomId, actorId) == Some(Unauthorized)
    ensures r == Failure(Conflict) <==>
      IsAdmin(s.participants, roomId, actorId) && |ActiveRows(s.participants, roomId, participantId)| == 1
    ensures r == Failure(NonUniqueResult) <==>
      RequireAdmin(s.participants, roomId, actorId) == Some(NonUniqueResult) ||
      (IsAdmin(s.participants, roomId, actorId) && |ActiveRows(s.participants, roomId, participantId)| >= 2)
    ensures r.Success? <==>
      IsAdmin(s.participants, roomId, actorId) && !IsActiveMember(s.participants, roomId, participantId)
    ensures r.Success? ==>
      && r.value.rooms == s.rooms && r.value.messages == s.messages
      && r.value.participants == s.participants + [Participant(roomId, participantId, Member, true)]
  {
    match RequireAdmin(s.participants, roomId, actorId)
    case Some(e) => Failure(e)
    case None =>
      match FindActiveParticipant(s.participants, roomId, participantId)
      case Unique(_) => Failure(Conflict)
      case Ambiguous => Failure(NonUniqueResult)
      case Absent => Success(s.(participants := s.participants + [Participant(roomId, participantId, Member, true)]))
  }

  /** The position of the user's first active row in the room. */
  function IndexOfActiveRow(ps: seq<Participant>, roomId: RoomId, userId: UserId): (i: nat)
    requires IsActiveMember(ps, roomId, userId)
    ensures i < |ps| && IsActiveRowOf(ps[i], roomId, userId)
    ensures forall j :: 0 <= j < i ==> !IsActiveRowOf(ps[j], roomId, userId)
    decreases |ps|
  {
    if IsActiveRowOf(ps[0], roomId, userId) then 0
    else
      var p :| p in ps && IsActiveRowOf(p, roomId, userId);
      assert p in ps[1..];
      1 + IndexOfActiveRow(ps[1..], roomId, userId)
  }

  /** removeParticipant: only the room's admin may remove; a user with no
      active row is NotFound; otherwise that row's active flag is cleared and
      every other field and row stays as it was. The last admin may remove
      itself: nothing prevents it. */
  function RemoveParticipant(s: ChatStore, roomId: RoomId, actorId: UserId, participantId: UserId): (r: Result<ChatStore, Error>)
    ensures r == Failure(Unauthorized) <==> RequireAdmin(s.participants, roomId, actorId) == Some(Unauthorized)
    ensures r == Failure(NotFound) <==>
      IsAdmin(s.participants, roomId, actorId) && !IsActiveMember(s.participants, roomId, participantId)
    ensures r == Failure(NonUniqueResult) <==>
      RequireAdmin(s.participants, roomId, actorId) == Some(NonUniqueResult) ||
      (IsAdmin(s.participants, roomId, actorId) && |ActiveRows(s.participants, roomId, participantId)| >= 2)
    ensures r.Success? <==>
      IsAdmin(s.participants, roomId, actorId) && |ActiveRows(s.participants, roomId, participantId)| == 1
    ensures r.Success? ==>
      && r.value.rooms == s.rooms && r.value.messages == s.messages
      && (exists i :: 0 <= i < |s.participants| && IsActiveRowOf(s.participants[i], roomId, participantId)
           && r.value.participants == s.participants[i := s.participants[i].(active := false)])
      && !IsActiveMember(r.value.participants, roomId, participantId)
  {
    match RequireAdmin(s.participants, roomId, actorId)
    case Some(e) => Failure(e)
    case None =>
      match FindActiveParticipant(s.participants, roomId, participantId)
      case Absent => Failure(NotFound)
      case Ambiguous => Failure(NonUniqueResult)
      case Unique(_) =>
        var ps := s.participants;
        var i := IndexOfActiveRow(ps, roomId, participantId);
        var ps' := ps[i := ps[i].(active := false)];
        FilterUpdateCount(ps, RowOf(roomId, participantId), i, ps[i].(active := false));
        assert !IsActiveMember(ps', roomId, participantId) by {
          var rows := ActiveRows(ps', roomId, participantId);
          assert |rows| == 0;
        }
        Success(s.(participants := ps'))
  }

  /** addParticipant keeps one active row per member. */
  lemma AddParticipantKeepsOneActiveRow(s: ChatStore, roomId: RoomId, actorId: UserId, participantId: UserId)
    requires OneActiveRowPerMember(s.participants)
    requires AddParticipant(s, roomId, actorId, participantId).Success?
    ensures OneActiveRowPerMember(AddParticipant(s, roomId, actorId, participantId).value.participants)
  {
    var row := Participant(roomId, participantId, Member, true);
    var ps := s.participants;
    assert !IsActiveMember(ps, roomId, participantId);
    forall rid, uid ensures |ActiveRows(ps + [row], rid, uid)| <= 1 {
      FilterAppend(ps, [row], RowOf(rid, uid));
      FilterSingleton(row, RowOf(rid, uid));
      if rid == roomId && uid == participantId {
        FilterNone(ps, RowOf(rid, uid));
      } else {
        assert |ActiveRows(ps, rid, uid)| <= 1;
      }
    }
  }

  /** removeParticipant keeps one active row per member. */
  lemma RemoveParticipantKeepsOneActiveRow(s: ChatStore, roomId: RoomId, actorId: UserId, participantId: UserId)
    requires OneActiveRowPerMember(s.participants)
    requires RemoveParticipant(s, roomId, actorId, participantId).Success?
    ensures OneActiveRowPerMember(RemoveParticipant(s, roomId, actorId, participantId).value.participants)
  {
    var ps := s.participants;
    var ps' := RemoveParticipant(s, roomId, actorId, participantId).value.participants;
    var i :| 0 <= i < |ps| && IsActiveRowOf(ps[i], roomId, participantId) && ps' == ps[i := ps[i].(active := false)];
    forall rid, uid ensures |ActiveRows(ps', rid, uid)| <= 1 {
      FilterUpdateCount(ps, RowOf(rid, uid), i, ps[i].(active := false));
      assert |ActiveRows(ps, rid, uid)| <= 1;
    }
  }

  /** Adding a user and then removing it again leaves the table with one
      more row for that user, inactive, and every other row as it was. */
  lemma AddThenRemove(s: ChatStore, roomId: RoomId, actorId: UserId, participantId: UserId)
    requires AddParticipant(s, roomId, actorId, participantId).Success?
    ensures var s1 := AddParticipant(s, roomId, actorId, participantId).value;
      RemoveParticipant(s1, roomId, actorId, participantId)
        == Success(s.(participants := s.participants + [Participant(roomId, participantId, Member, false)]))
  {
    var ps := s.participants;
    var ps1 := ps + [Participant(roomId, participantId, Member, true)];
    AddKeepsAdmin(s, roomId, actorId, participantId);
    AddedRowIsOnlyRow(s, roomId, actorId, participantId);
    RemoveFoundRow(s.(participants := ps1), roomId, actorId, participantId);
    assert ps1[|ps| := ps1[|ps|].(active := false)] == ps + [Participant(roomId, participantId, Member, false)];
  }

  /** Adding a participant leaves the acting admin an admin. */
  lemma AddKeepsAdmin(s: ChatStore, roomId: RoomId, actorId: UserId, participantId: UserId)
    requires AddParticipant(s, roomId, actorId, participantId).Success?
    ensures IsAdmin(AddParticipant(s, roomId, actorId, participantId).value.participants, roomId, actorId)
  {
    var row := Participant(roomId, participantId, Member, true);
    var ps := s.participants;
    assert !IsActiveMember(ps, roomId, participantId);
    assert ActiveRows(ps, roomId, actorId)[0] in ActiveRows(ps, roomId, actorId);
    assert actorId != participantId;
    FilterAppend(ps, [row], RowOf(roomId, actorId));
    FilterSingleton(row, RowOf(roomId, actorId));
  }

  /** After addParticipant the new row is the target's only active row. */
  lemma AddedRowIsOnlyRow(s: ChatStore, roomId: RoomId, actorId: UserId, participantId: UserId)
    requires AddParticipant(s, roomId, actorId, participantId).Success?
    ensures var ps1 := AddParticipant(s, roomId, actorId, participantId).value.participants;
      && |ActiveRows(ps1, roomId, participantId)| == 1
      && IsActiveMember(ps1, roomId, participantId)
      && IndexOfActiveRow(ps1, roomId, participantId) == |s.participants|
  {
    var row := Participant(roomId, participantId, Member, true);
    var ps := s.participants;
    assert !IsActiveMember(ps, roomId, participantId);
    FilterAppend(ps, [row], RowOf(roomId, participantId));
    FilterSingleton(row, RowOf(roomId, participantId));
    FilterNone(ps, RowOf(roomId, participantId));
    IndexOfAppendedRow(ps, roomId, participantId, row);
  }

  /** When the admin guard passes and the target has one active row,
      removeParticipant deactivates the target's first active row. */
  lemma RemoveFoundRow(s: ChatStore, roomId: RoomId, actorId: UserId, participantId: UserId)
    requires IsAdmin(s.participants, roomId, actorId) && |ActiveRows(s.participants, roomId, participantId)| == 1
    ensures IsActiveMember(s.participants, roomId, participantId)
    ensures var i := IndexOfActiveRow(s.participants, roomId, participantId);
      RemoveParticipant(s, roomId, actorId, participantId)
        == Success(s.(participants := s.participants[i := s.participants[i].(active := false)]))
  {
    var rows := ActiveRows(s.participants, roomId, participantId);
    assert rows[0] in rows;
  }

  /** A row appended for a user with no active row is the user's first
      active row. */
  lemma IndexOfAppendedRow(ps: seq<Participant>, roomId: RoomId, userId: UserId, row: Participant)
    requires !IsActiveMember(ps, roomId, userId) && IsActiveRowOf(row, roomId, userId)
    ensures IsActiveMember(ps + [row], roomId, userId)
    ensures IndexOfActiveRow(ps + [row], roomId, userId) == |ps|
  {
    assert (ps + [row])[|ps|] == row;
    assert forall j :: 0 <= j < |ps| ==> (ps + [row])[j] == ps[j] && ps[j] in ps;
  }

  /** Clearing the active flag of the only admin's one active row leaves the
      room with no active ADMIN row. */
  lemma ClearedAdminRow(ps: seq<Participant>, roomId: RoomId, adminId: UserId, i: nat)
    requires i < |ps| && IsActiveRowOf(ps[i], roomId, adminId)
    requires |ActiveRows(ps, roomId, adminId)| == 1
    requires forall p :: p in ps && p.roomId == roomId && p.active && p.role == Admin ==> p.userId == adminId
    ensures forall p :: p in ps[i := ps[i].(active := false)] && p.roomId == roomId && p.active ==> p.role == Member
  {
    var ps' := ps[i := ps[i].(active := false)];
    FilterOneIndex(ps, RowOf(roomId, adminId), i);
    forall p | p in ps' && p.roomId == roomId && p.active ensures p.role == Member {
      var j :| 0 <= j < |ps'| && ps'[j] == p;
      assert j != i && ps[j] == p;
    }
  }

  /** A room with no active ADMIN row has no admin for the guard to accept. */
  lemma NoAdminRow(ps: seq<Participant>, roomId: RoomId, userId: UserId)
    requires forall p :: p in ps && p.roomId == roomId && p.active ==> p.role == Member
    ensures !IsAdmin(ps, roomId, userId)
  {
    var rows := ActiveRows(ps, roomId, userId);
    if |rows| == 1 {
      assert rows[0] in rows;
    }
  }

  /** Nothing stops the only admin from removing itself; afterwards the room
      has no active admin, and every later addParticipant fails. */
  lemma RemoveLastAdmin(s: ChatStore, roomId: RoomId, adminId: UserId, otherActor: UserId, newcomer: UserId)
    requires IsAdmin(s.participants, roomId, adminId)
    requires forall p :: p in s.participants && p.roomId == roomId && p.active && p.role == Admin ==> p.userId == adminId
    ensures RemoveParticipant(s, roomId, adminId, adminId).Success?
    ensures var t := RemoveParticipant(s, roomId, adminId, adminId).value;
      && (forall p :: p in t.participants && p.roomId == roomId && p.active ==> p.role == Member)
      && AddParticipant(t, roomId, otherActor, newcomer).Failure?
  {
    var ps := s.participants;
    var t := RemoveParticipant(s, roomId, adminId, adminId).value;
    var i :| 0 <= i < |ps| && IsActiveRowOf(ps[i], roomId, adminId) && t.participants == ps[i := ps[i].(active := false)];
    ClearedAdminRow(ps, roomId, adminId, i);
    NoAdminRow(t.participants, roomId, otherActor);
  }

  // ---------------------------------------------------------------- a scenario

  function TeamUsers(): seq<User>
  {
    [User(1, "u1@example.org", "U1"), User(2, "u2@example.org", "U2"), User(3, "u3@example.org", "U3")]
  }

  /** User 1 creates room "Team" with user 2 in an empty store. */
  function Team(): (ChatStore, ChatRoom)
  {
    CreateRoom(ChatStore([], [], []), "Team", true, None, 1, [2])
  }

  /** The new room holds exactly the creator's ADMIN row and user 2's
      MEMBER row. */
  lemma TeamRows()
    ensures Team().0.participants == [Participant(Team().1.id, 1, Admin, true), Participant(Team().1.id, 2, Member, true)]
  {
    var (s1, room) := Team();
    assert MemberRows(room.id, 1, [2]) == [Participant(room.id, 2, Member, true)];
  }

  /** Who holds which row in a table of one ADMIN row for user 1 and one
      MEMBER row for user 2. */
  lemma AdminAndMember(ps: seq<Participant>, roomId: RoomId)
    requires ps == [Participant(roomId, 1, Admin, true), Participant(roomId, 2, Member, true)]
    ensures IsAdmin(ps, roomId, 1)
    ensures ActiveRows(ps, roomId, 2) == [ps[1]]
    ensures CountParticipantsByRoomId(ps, roomId) == 2
    ensures !IsActiveMember(ps, roomId, 3)
  {
    FilterPair(ps[0], ps[1], RowOf(roomId, 1));
    FilterPair(ps[0], ps[1], RowOf(roomId, 2));
    FilterPair(ps[0], ps[1], InRoom(roomId));
  }

  /** In the new room user 1 is the admin, user 2 a member with one active
      row, the room counts two participants, and user 3, who is not one of
      them, may not send. */
  lemma TeamCreated()
    ensures var (s1, room) := Team();
      && IsAdmin(s1.participants, room.id, 1)
      && ActiveRows(s1.participants, room.id, 2) == [Participant(room.id, 2, Member, true)]
      && CountParticipantsByRoomId(s1.participants, room.id) == 2
      && SendMessage(s1, TeamUsers(), room.id, 3, "hello", "TEXT", 5) == Failure(Unauthorized)
  {
    TeamRows();
    AdminAndMember(Team().0.participants, Team().1.id);
  }

  /** A member of a room whose only active message is `m` reads exactly
      that message, with its sender resolved, on page 0. */
  lemma SingleMessagePage(s: ChatStore, users: seq<User>, roomId: RoomId, userId: UserId, m: Message)
    requires |ActiveRows(s.participants, roomId, userId)| == 1
    requires RoomMessages(s.messages, roomId) == [m]
    ensures var got := GetRoomMessages(s, users, roomId, userId, 0, 20);
      && got.Success?
      && |got.value.content| == 1
      && got.value.content[0].message == m
      && got.value.content[0].sender == FindUserById(users, m.senderId)
  {
    assert m in RoomMessages(s.messages, roomId);
    assert NewestFirst(s.messages, roomId) == [m];
    assert PageSlice([m], 0, 20) == [m];
  }

  /** In a room just created, the creator's first message is the one message
      a member listed once reads on page 0, with the creator as its sender. */
  lemma FirstMessageInNewRoom(s: ChatStore, users: seq<User>, name: string, isGroup: bool,
                              description: Option<string>, creatorId: UserId, participantIds: seq<UserId>,
                              memberId: UserId, content: string, messageType: string, sentAt: nat)
    requires memberId != creatorId && multiset(participantIds)[memberId] == 1
    requires FindUserById(users, creatorId).Some?
    ensures var (t, room) := CreateRoom(s, name, isGroup, description, creatorId, participantIds);
      var sent := SendMessage(t, users, room.id, creatorId, content, messageType, sentAt);
      && sent.Success?
      && var got := GetRoomMessages(sent.value.0, users, room.id, memberId, 0, 20);
      && got.Success?
      && |got.value.content| == 1
      && got.value.content[0].message == sent.value.1.message
      && got.value.content[0].sender == FindUserById(users, creatorId)
  {
    CreateRoomRowCount(s, name, isGroup, description, creatorId, participantIds, creatorId);
    CreateRoomRowCount(s, name, isGroup, description, creatorId, participantIds, memberId);
    var (t, room) := CreateRoom(s, name, isGroup, description, creatorId, participantIds);
    assert ActiveRows(t.participants, room.id, creatorId)[0] in ActiveRows(t.participants, room.id, creatorId);
    var sent := SendMessage(t, users, room.id, creatorId, content, messageType, sentAt);
    var (t2, view) := sent.value;
    var m := view.message;
    var inRoom := (x: Message) => ActiveInRoom(x, room.id);
    FilterAppend(s.messages, [m], inRoom);
    FilterNone(s.messages, inRoom);
    FilterSingleton(m, inRoom);
    assert RoomMessages(t2.messages, room.id) == [m];
    SingleMessagePage(t2, users, room.id, memberId, m);
  }

  /** User 1 sends "hello" to the new room, and user 2 reads it on page 0
      with user 1's profile as its sender. */
  lemma TeamFirstMessage()
    ensures var (s1, room) := Team();
      var sent := SendMessage(s1, TeamUsers(), room.id, 1, "hello", "TEXT", 5);
      && sent.Success?
      && var got := GetRoomMessages(sent.value.0, TeamUsers(), room.id, 2, 0, 20);
      && got.Success?
      && |got.value.content| == 1
      && got.value.content[0].message.content == "hello"
      && got.value.content[0].sender == Some(TeamUsers()[0])
  {
    var users := TeamUsers();
    assert FindUserById(users, 1) == Some(users[0]);
    assert multiset([2])[2] == 1;
    FirstMessageInNewRoom(ChatStore([], [], []), users, "Team", true, None, 1, [2], 2, "hello", "TEXT", 5);
  }
}

=== FILE: Domain.dfy ===
/** The records the chat backend keeps: users (owned by the identity
    subsystem, only read here), chat rooms, room participant rows, messages
    and directed contact rows, plus the closed set of errors its services
    raise. Identifiers are UUIDs in the store; here they are naturals, and a
    new record gets an identifier no existing record uses. */
module Domain {
  import opened Wrappers
  import opened Seqs

  type UserId = nat
  type RoomId = nat
  type MessageId = nat
  type ContactId = nat

  /** A user's public profile, as the user endpoints return it. */
  datatype User = User(id: UserId, email: string, displayName: string)

  datatype ChatRoom = ChatRoom(
    id: RoomId,
    name: string,
    isGroup: bool,
    creatorId: UserId,
    description: Option<string>)

  datatype Role = Admin | Member

  /** One membership row. "Removing" a participant clears `active`; rows are
      never deleted. */
  datatype Participant = Participant(roomId: RoomId, userId: UserId, role: Role, active: bool)

  /** A message. `sentAt` is the timestamp the store assigns on insert,
      supplied by the caller here; `messageType` carries the message kind
      unchanged. */
  datatype Message = Message(
    id: MessageId,
    roomId: RoomId,
    senderId: UserId,
    content: string,
    messageType: string,
    sentAt: nat,
    active: bool)

  datatype ContactStatus = Pending | Accepted | Rejected

  /** One directed contact row: `userId` asked (or is friends with)
      `friendId`. A friendship is two ACCEPTED rows, one per direction. */
  datatype Contact = Contact(
    id: ContactId,
    userId: UserId,
    friendId: UserId,
    status: ContactStatus,
    active: bool)

  /** The exceptions the services throw, as a closed set.
      - NotFound: ResourceNotFoundException (user, room, request or participant missing)
      - Unauthorized: UnauthorizedException (no access to the room, or not its admin)
      - Conflict: the target is already a participant (IllegalArgumentException),
        or a contact row already exists for the ordered pair (IllegalStateException)
      - Forbidden: IllegalStateException, the caller is not the request's recipient
      - InvalidState: IllegalStateException, the request is no longer PENDING
      - InvalidPage: IllegalArgumentException from building a page request with a
        negative page index or a page size below one
      - NonUniqueResult: a query declared to return at most one row matched several */
  datatype Error =
    | NotFound
    | Unauthorized
    | Conflict
    | Forbidden
    | InvalidState
    | InvalidPage
    | NonUniqueResult

  /** One page of a paged query and its metadata. */
  datatype Page<T> = Page(content: seq<T>, number: nat, size: nat, totalElements: nat, totalPages: nat)

  /** The user repository's lookup by primary key. */
  function FindUserById(users: seq<User>, id: UserId): (r: Option<User>)
    ensures r.Some? ==> r.value in users && r.value.id == id
    ensures r.None? <==> forall u :: u in users ==> u.id != id
  {
    FindFirst(users, (u: User) => u.id == id)
  }

  /** The user repository's lookup by e-mail address. */
  function FindUserByEmail(users: seq<User>, email: string): (r: Option<User>)
    ensures r.Some? ==> r.value in users && r.value.email == email
    ensures r.None? <==> forall u :: u in users ==> u.email != email
  {
    FindFirst(users, (u: User) => u.email == email)
  }

  /** Whether a user id resolves to a user record. */
  function Resolves(users: seq<User>): UserId -> bool
  {
    (id: UserId) => FindUserById(users, id).Some?
  }

  /** The user records that `ids` resolve to, in order, skipping ids with no
      record (the `findById(..).orElse(null)` then drop-nulls pattern). */
  function ResolveUsers(users: seq<User>, ids: seq<UserId>): (r: seq<User>)
    ensures |r| == |Filter(ids, Resolves(users))|
    ensures forall u :: u in r <==> u.id in ids && FindUserById(users, u.id) == Some(u)
    ensures forall u :: multiset(r)[u] == if FindUserById(users, u.id) == Some(u) then multiset(ids)[u.id] else 0
    decreases |ids|
  {
    if |ids| == 0 then []
    else
      assert ids == [ids[0]] + ids[1..];
      assert forall id :: multiset(ids)[id] == multiset([ids[0]])[id] + multiset(ids[1..])[id];
      var rest := ResolveUsers(users, ids[1..]);
      match FindUserById(users, ids[0])
      case Some(u) => [u] + rest
      case None => rest
  }

  /** An identifier larger than every `key` in `s`, and so used by none of
      them: what the store's identifier generator guarantees. */
  function FreshId<T>(s: seq<T>, key: T -> nat): (b: nat)
    ensures forall x :: x in s ==> key(x) < b
    decreases |s|
  {
    if |s| == 0 then 0
    else
      var rest := FreshId(s[1..], key);
      assert forall x :: x in s ==> x == s[0] || x in s[1..];
      if key(s[0]) < rest then rest else key(s[0]) + 1
  }
}

=== FILE: FriendsService.dfy ===
/** The friends service: friend requests and friendships as directed contact
    rows. A request is one PENDING row from sender to recipient; a friendship
    is two ACCEPTED rows, one per direction. Every operation is one
    transaction: it returns the new contact table, or an error and no table. */
module FriendsService {
  import opened Wrappers
  import opened Seqs
  import opened Domain
  import opened UserContactRepository

  /** A pending request as getFriendRequests lists it, with the sender's
      profile. */
  datatype RequestView = RequestView(id: ContactId, senderId: UserId, receiverId: UserId,
                                     status: ContactStatus, sender: User)

  // ---------------------------------------------------------------- reads

  /** The friend id of each row, in order. */
  function FriendIdsOf(rows: seq<Contact>): (r: seq<UserId>)
    ensures |r| == |rows|
    ensures forall id :: id in r <==> exists c :: c in rows && c.friendId == id
  {
    Map(rows, (c: Contact) => c.friendId)
  }

  /** getFriends: the profile of the friend of each of the user's active
      ACCEPTED rows, in row order, skipping friends with no user record. */
  function GetFriends(cs: seq<Contact>, users: seq<User>, userId: UserId): (r: seq<User>)
    ensures forall u :: u in r <==>
      && FindUserById(users, u.id) == Some(u)
      && exists c :: c in cs && c.userId == userId && c.friendId == u.id && c.status == Accepted && c.active
    ensures |r| == |Filter(FriendIdsOf(FindFriendsByUserId(cs, userId)), Resolves(users))|
    ensures |r| <= |cs|
  {
    var rows := FindFriendsByUserId(cs, userId);
    ResolveUsers(users, FriendIdsOf(rows))
  }

  function ViewOf(c: Contact, sender: User): RequestView
  {
    RequestView(c.id, c.userId, c.friendId, c.status, sender)
  }

  /** Whether a row's sender resolves to a user record. */
  function SenderResolves(users: seq<User>): Contact -> bool
  {
    (c: Contact) => FindUserById(users, c.userId).Some?
  }

  /** One view per row whose sender resolves, in row order. */
  function RequestViews(users: seq<User>, rows: seq<Contact>): (r: seq<RequestView>)
    ensures |r| == |Filter(rows, SenderResolves(users))|
    ensures forall v :: v in r <==>
      exists c :: c in rows && FindUserById(users, c.userId) == Some(v.sender) && v == ViewOf(c, v.sender)
    decreases |rows|
  {
    if |rows| == 0 then []
    else
      assert rows == [rows[0]] + rows[1..];
      var rest := RequestViews(users, rows[1..]);
      match FindUserById(users, rows[0].userId)
      case None => rest
      case Some(u) => [ViewOf(rows[0], u)] + rest
  }

  /** getFriendRequests: the active PENDING rows addressed to the user whose
      sender resolves, each with the sender as `senderId` and the user as
      `receiverId`. */
  function GetFriendRequests(cs: seq<Contact>, users: seq<User>, userId: UserId): (r: seq<RequestView>)
    ensures forall v :: v in r <==>
      exists c :: c in cs && c.friendId == userId && c.status == Pending && c.active
        && FindUserById(users, c.userId) == Some(v.sender) && v == ViewOf(c, v.sender)
    ensures forall v :: v in r ==>
      v.receiverId == userId && v.status == Pending && v.sender.id == v.senderId
    ensures |r| == |Filter(FindPendingRequestsByUserId(cs, userId), SenderResolves(users))|
  {
    RequestViews(users, FindPendingRequestsByUserId(cs, userId))
  }

  // ---------------------------------------------------------------- writes

  /** An identifier no contact row uses. */
  function NewContactId(cs: seq<Contact>): (id: ContactId)
    ensures forall c :: c in cs ==> c.id != id
  {
    FreshId(cs, (c: Contact) => c.id)
  }

  /** Saving `x` over the row with its primary key: every row with that id
      becomes `x`, every other row stays. */
  function ReplaceById(cs: seq<Contact>, x: Contact): (r: seq<Contact>)
    ensures |r| == |cs|
    ensures forall i :: 0 <= i < |cs| ==> r[i] == if cs[i].id == x.id then x else cs[i]
    ensures forall c :: c in r ==> c == x || (c in cs && c.id != x.id)
  {
    seq(|cs|, i requires 0 <= i < |cs| => if cs[i].id == x.id then x else cs[i])
  }

  /** Deleting the row with primary key `id`. */
  function DeleteById(cs: seq<Contact>, id: ContactId): (r: seq<Contact>)
    ensures forall c :: c in r <==> c in cs && c.id != id
    ensures forall c :: multiset(r)[c] == if c.id != id then multiset(cs)[c] else 0
  {
    FilterCounts(cs, (c: Contact) => c.id != id);
    Filter(cs, (c: Contact) => c.id != id)
  }

  /** sendFriendRequest: the recipient is looked up by e-mail (NotFound when
      none has it); any row for the ordered pair sender→recipient, whatever
      its status or active flag, is a conflict; the reverse direction is not
      looked at, and neither is a request to oneself. Otherwise one active
      PENDING row sender→recipient is appended. */
  function SendFriendRequest(cs: seq<Contact>, users: seq<User>, senderId: UserId, email: string): (r: Result<seq<Contact>, Error>)
    ensures r == Failure(NotFound) <==> forall u :: u in users ==> u.email != email
    ensures r == Failure(Conflict) <==>
      FindUserByEmail(users, email).Some? && |PairRows(cs, senderId, FindUserByEmail(users, email).value.id)| == 1
    ensures r == Failure(NonUniqueResult) <==>
      FindUserByEmail(users, email).Some? && |PairRows(cs, senderId, FindUserByEmail(users, email).value.id)| >= 2
    ensures r.Success? <==>
      FindUserByEmail(users, email).Some? &&
      forall c :: c in cs ==> !(c.userId == senderId && c.friendId == FindUserByEmail(users, email).value.id)
    ensures r.Success? ==>
      var recipient := FindUserByEmail(users, email).value;
      && |r.value| == |cs| + 1 && r.value[..|cs|] == cs
      && var c := r.value[|cs|];
      && c.userId == senderId && c.friendId == recipient.id && c.status == Pending && c.active
      && recipient in users && recipient.email == email
      && forall d :: d in cs ==> d.id != c.id
  {
    match FindUserByEmail(users, email)
    case None => Failure(NotFound)
    case Some(recipient) =>
      match FindByUserIdAndFriendId(cs, senderId, recipient.id)
      case Unique(_) => Failure(Conflict)
      case Ambiguous => Failure(NonUniqueResult)
      case Absent =>
        var row := Contact(NewContactId(cs), senderId, recipient.id, Pending, true);
        assert (cs + [row])[..|cs|] == cs;
        Success(cs + [row])
  }

  /** A request just sent by a user on record is listed among the
      recipient's friend requests, with the sender's profile. */
  lemma SentRequestIsListed(cs: seq<Contact>, users: seq<User>, senderId: UserId, email: string, sender: User)
    requires SendFriendRequest(cs, users, senderId, email).Success?
    requires FindUserById(users, senderId) == Some(sender)
    ensures var r := SendFriendRequest(cs, users, senderId, email).value;
      ViewOf(r[|cs|], sender) in GetFriendRequests(r, users, FindUserByEmail(users, email).value.id)
  {
    var r := SendFriendRequest(cs, users, senderId, email).value;
    assert r[|cs|] in r;
  }

  /** The checks acceptFriendRequest and rejectFriendRequest share, in their
      order: the request must exist (NotFound), be addressed to the caller
      (Forbidden) and still be PENDING (InvalidState). The lookup is by
      primary key, with no active filter. */
  function RequestGuard(cs: seq<Contact>, userId: UserId, requestId: ContactId): (r: Result<Contact, Error>)
    ensures r == Failure(NotFound) <==> forall c :: c in cs ==> c.id != requestId
    ensures r == Failure(Forbidden) <==>
      FindById(cs, requestId).Some? && FindById(cs, requestId).value.friendId != userId
    ensures r == Failure(InvalidState) <==>
      FindById(cs, requestId).Some? && FindById(cs, requestId).value.friendId == userId
      && FindById(cs, requestId).value.status != Pending
    ensures r.Success? <==>
      FindById(cs, requestId).Some? && FindById(cs, requestId).value.friendId == userId
      && FindById(cs, requestId).value.status == Pending
    ensures r.Success? ==>
      r.value in cs && r.value.id == requestId && r.value.friendId == userId && r.value.status == Pending
  {
    match FindById(cs, requestId)
    case None => Failure(NotFound)
    case Some(request) =>
      if request.friendId != userId then Failure(Forbidden)
      else if request.status != Pending then Failure(InvalidState)
      else Success(request)
  }

  /** acceptFriendRequest as written: the request is saved as ACCEPTED, then a
      new ACCEPTED row acceptor→sender is appended without looking for one
      that already exists. */
  function AcceptAsWritten(cs: seq<Contact>, userId: UserId, requestId: ContactId): (r: Result<seq<Contact>, Error>)
    ensures r.Failure? <==> RequestGuard(cs, userId, requestId).Failure?
    ensures r.Failure? ==> r.error == RequestGuard(cs, userId, requestId).error
    ensures r.Success? ==>
      var request := RequestGuard(cs, userId, requestId).value;
      && |r.value| == |cs| + 1
      && r.value[..|cs|] == ReplaceById(cs, request.(status := Accepted))
      && r.value[|cs|] == Contact(r.value[|cs|].id, userId, request.userId, Accepted, true)
      && forall c :: c in cs ==> c.id != r.value[|cs|].id
  {
    match RequestGuard(cs, userId, requestId)
    case Failure(e) => Failure(e)
    case Success(request) =>
      var updated := ReplaceById(cs, request.(status := Accepted));
      var reciprocal := Contact(NewContactId(cs), userId, request.userId, Accepted, true);
      assert (updated + [reciprocal])[..|cs|] == updated;
      Success(updated + [reciprocal])
  }

  /** The key the reciprocal row acceptor→sender is saved under: the key of
      the pair's row when the lookup finds one, a fresh key otherwise. */
  function ReciprocalId(ts: seq<Contact>, acceptorId: UserId, senderId: UserId): (id: ContactId)
    ensures (forall d :: d in ts ==> d.id != id) ||
            (exists d :: d in ts && d.id == id && d.userId == acceptorId && d.friendId == senderId)
  {
    match FindByUserIdAndFriendId(ts, acceptorId, senderId)
    case Unique(row) => row.id
    case _ => NewContactId(ts)
  }

  /** Saving the ACCEPTED reciprocal row acceptor→sender: over the pair's
      row (made ACCEPTED and active) when there is one, as a new row when
      there is none. Several rows for the pair make the lookup fail. */
  function SaveReciprocal(ts: seq<Contact>, acceptorId: UserId, senderId: UserId): (r: Result<seq<Contact>, Error>)
    ensures r.Failure? <==> |PairRows(ts, acceptorId, senderId)| >= 2
    ensures r.Failure? ==> r.error == NonUniqueResult
    ensures r.Success? ==>
      var id := ReciprocalId(ts, acceptorId, senderId);
      && |ts| <= |r.value| <= |ts| + 1
      && Contact(id, acceptorId, senderId, Accepted, true) in r.value
      && forall i :: 0 <= i < |ts| && ts[i].id != id ==> r.value[i] == ts[i]
    ensures |PairRows(ts, acceptorId, senderId)| == 0 ==>
      && r.Success? && |r.value| == |ts| + 1 && r.value[..|ts|] == ts
      && r.value[|ts|] == Contact(r.value[|ts|].id, acceptorId, senderId, Accepted, true)
      && forall c :: c in ts ==> c.id != r.value[|ts|].id
    ensures |PairRows(ts, acceptorId, senderId)| == 1 ==>
      r == Success(ReplaceById(ts, PairRows(ts, acceptorId, senderId)[0].(status := Accepted, active := true)))
  {
    match FindByUserIdAndFriendId(ts, acceptorId, senderId)
    case Ambiguous => Failure(NonUniqueResult)
    case Absent =>
      var reciprocal := Contact(NewContactId(ts), acceptorId, senderId, Accepted, true);
      var result := ts + [reciprocal];
      assert result[|ts|] == reciprocal && result[..|ts|] == ts;
      Success(result)
    case Unique(row) =>
      var reciprocal := row.(status := Accepted, active := true);
      var result := ReplaceById(ts, reciprocal);
      var j :| 0 <= j < |ts| && ts[j] == row;
      assert result[j] == reciprocal;
      var pair := PairRows(ts, acceptorId, senderId);
      assert pair[0] in pair;
      Success(result)
  }

  /** acceptFriendRequest with the reciprocal row saved over an existing row
      for the pair acceptor→sender when there is one (made ACCEPTED and
      active), and appended only when there is none. Every other row stays
      as it was. */
  function Accept(cs: seq<Contact>, userId: UserId, requestId: ContactId): (r: Result<seq<Contact>, Error>)
    ensures r == Failure(NotFound) <==> RequestGuard(cs, userId, requestId) == Failure(NotFound)
    ensures r == Failure(Forbidden) <==> RequestGuard(cs, userId, requestId) == Failure(Forbidden)
    ensures r == Failure(InvalidState) <==> RequestGuard(cs, userId, requestId) == Failure(InvalidState)
    ensures r == Failure(NonUniqueResult) <==>
      RequestGuard(cs, userId, requestId).Success? &&
      |PairRows(ReplaceById(cs, RequestGuard(cs, userId, requestId).value.(status := Accepted)),
                userId, RequestGuard(cs, userId, requestId).value.userId)| >= 2
    ensures r.Success? <==>
      RequestGuard(cs, userId, requestId).Success? &&
      |PairRows(ReplaceById(cs, RequestGuard(cs, userId, requestId).value.(status := Accepted)),
                userId, RequestGuard(cs, userId, requestId).value.userId)| < 2
    ensures r.Success? ==>
      var request := RequestGuard(cs, userId, requestId).value;
      && |cs| <= |r.value| <= |cs| + 1
      && (exists c :: c in r.value && c.id == requestId && c.userId == request.userId && c.friendId == userId
           && c.status == Accepted && (request.active ==> c.active))
      && (exists c :: c in r.value && c.userId == userId && c.friendId == request.userId
           && c.status == Accepted && c.active
           && forall i :: 0 <= i < |cs| && cs[i].id != requestId && cs[i].id != c.id ==> r.value[i] == cs[i])
    ensures r.Success? ==>
      var request := RequestGuard(cs, userId, requestId).value;
      var updated := ReplaceById(cs, request.(status := Accepted));
      var pair := PairRows(updated, userId, request.userId);
      && (|pair| == 0 ==>
           && |r.value| == |cs| + 1 && r.value[..|cs|] == updated
           && r.value[|cs|] == Contact(r.value[|cs|].id, userId, request.userId, Accepted, true)
           && forall c :: c in cs ==> c.id != r.value[|cs|].id)
      && (|pair| == 1 ==> r.value == ReplaceById(updated, pair[0].(status := Accepted, active := true)))
  {
    match RequestGuard(cs, userId, requestId)
    case Failure(e) => Failure(e)
    case Success(request) =>
      var updated := ReplaceById(cs, request.(status := Accepted));
      var r := SaveReciprocal(updated, userId, request.userId);
      AcceptedRows(cs, request, updated, r);
      r
  }

  /** The rows the corrected accept leaves, given the saved reciprocal. */
  lemma AcceptedRows(cs: seq<Contact>, request: Contact, updated: seq<Contact>, r: Result<seq<Contact>, Error>)
    requires request in cs
    requires updated == ReplaceById(cs, request.(status := Accepted))
    requires r == SaveReciprocal(updated, request.friendId, request.userId)
    ensures r.Success? ==>
      && (exists c :: c in r.value && c.id == request.id && c.userId == request.userId && c.friendId == request.friendId
           && c.status == Accepted && (request.active ==> c.active))
      && (exists c :: c in r.value && c.userId == request.friendId && c.friendId == request.userId
           && c.status == Accepted && c.active
           && forall i :: 0 <= i < |cs| && cs[i].id != request.id && cs[i].id != c.id ==> r.value[i] == cs[i])
    ensures r.Success? && |r.value| == |cs| + 1 ==> forall c :: c in cs ==> c.id != r.value[|cs|].id
  {
    if r.Success? {
      AcceptedRequestRow(cs, request, updated, r.value);
      AcceptedReciprocalRow(cs, request, updated, r.value);
      if |r.value| == |cs| + 1 {
        AcceptedFreshRow(cs, request, updated, r.value);
      }
    }
  }

  /** The request row survives the corrected accept as ACCEPTED, and active
      if it was. */
  lemma AcceptedRequestRow(cs: seq<Contact>, request: Contact, updated: seq<Contact>, rs: seq<Contact>)
    requires request in cs
    requires updated == ReplaceById(cs, request.(status := Accepted))
    requires Success(rs) == SaveReciprocal(updated, request.friendId, request.userId)
    ensures exists c :: (c in rs && c.id == request.id && c.userId == request.userId && c.friendId == request.friendId
                         && c.status == Accepted && (request.active ==> c.active))
  {
    var accepted := request.(status := Accepted);
    var k :| 0 <= k < |cs| && cs[k] == request;
    assert updated[k] == accepted;
    var id := ReciprocalId(updated, request.friendId, request.userId);
    var c := Contact(id, request.friendId, request.userId, Accepted, true);
    assert c in rs;
    if id == request.id {
      var d :| d in updated && d.id == id && d.userId == request.friendId && d.friendId == request.userId;
      assert d == accepted;
    } else {
      assert rs[k] == accepted;
    }
  }

  /** The corrected accept holds an active ACCEPTED row acceptor→sender, and
      every row other than the request and that row stays as it was. */
  lemma AcceptedReciprocalRow(cs: seq<Contact>, request: Contact, updated: seq<Contact>, rs: seq<Contact>)
    requires updated == ReplaceById(cs, request.(status := Accepted))
    requires Success(rs) == SaveReciprocal(updated, request.friendId, request.userId)
    ensures exists c :: (c in rs && c.userId == request.friendId && c.friendId == request.userId
                         && c.status == Accepted && c.active
                         && forall i :: 0 <= i < |cs| && cs[i].id != request.id && cs[i].id != c.id ==> rs[i] == cs[i])
  {
    var id := ReciprocalId(updated, request.friendId, request.userId);
    var c := Contact(id, request.friendId, request.userId, Accepted, true);
    assert c in rs;
  }

  /** A row the corrected accept appends has a key no earlier row used. */
  lemma AcceptedFreshRow(cs: seq<Contact>, request: Contact, updated: seq<Contact>, rs: seq<Contact>)
    requires updated == ReplaceById(cs, request.(status := Accepted))
    requires Success(rs) == SaveReciprocal(updated, request.friendId, request.userId)
    requires |rs| == |cs| + 1
    ensures forall c :: c in cs ==> c.id != rs[|cs|].id
  {
    var pair := PairRows(updated, request.friendId, request.userId);
    assert |pair| == 0;
    forall c | c in cs ensures c.id != rs[|cs|].id {
      var i :| 0 <= i < |cs| && cs[i] == c;
      assert updated[i] in updated && updated[i].id == c.id;
    }
  }

  /** rejectFriendRequest: after the shared checks the request row is
      deleted (its status is set to REJECTED first, but the row is gone). */
  function RejectFriendRequest(cs: seq<Contact>, userId: UserId, requestId: ContactId): (r: Result<seq<Contact>, Error>)
    ensures r.Failure? <==> RequestGuard(cs, userId, requestId).Failure?
    ensures r.Failure? ==> r.error == RequestGuard(cs, userId, requestId).error
    ensures r.Success? ==> forall c :: c in r.value <==> c in cs && c.id != requestId
  {
    match RequestGuard(cs, userId, requestId)
    case Failure(e) => Failure(e)
    case Success(request) => Success(DeleteById(cs, request.id))
  }

  /** Whether a row joins `a` and `b` in either direction. */
  predicate Between(c: Contact, a: UserId, b: UserId)
  {
    (c.userId == a && c.friendId == b) || (c.userId == b && c.friendId == a)
  }

  /** Deleting the looked-up row, when the lookup found one. */
  function DeleteFound(cs: seq<Contact>, found: Lookup<Contact>): (r: seq<Contact>)
    requires !found.Ambiguous?
    ensures found.Absent? ==> r == cs
    ensures found.Unique? ==> forall c :: c in r <==> c in cs && c.id != found.row.id
    ensures found.Unique? ==> forall c :: multiset(r)[c] == if c.id != found.row.id then multiset(cs)[c] else 0
  {
    match found
    case Unique(row) => DeleteById(cs, row.id)
    case Absent => cs
  }

  /** No row between the two users shares the key of `c`: the rows
      removeFriend keeps. */
  predicate Unlinked(cs: seq<Contact>, userId: UserId, friendId: UserId, c: Contact)
  {
    forall d :: d in cs && Between(d, userId, friendId) ==> d.id != c.id
  }

  /** When neither direction's lookup fails, a row is unlinked exactly when
      its key is neither found row's key. */
  lemma UnlinkedIff(cs: seq<Contact>, userId: UserId, friendId: UserId, c: Contact)
    requires !FindByUserIdAndFriendId(cs, userId, friendId).Ambiguous?
    requires !FindByUserIdAndFriendId(cs, friendId, userId).Ambiguous?
    ensures var forward := FindByUserIdAndFriendId(cs, userId, friendId);
      var backward := FindByUserIdAndFriendId(cs, friendId, userId);
      Unlinked(cs, userId, friendId, c) <==>
        (forward.Unique? ==> c.id != forward.row.id) && (backward.Unique? ==> c.id != backward.row.id)
  {
    var forward := FindByUserIdAndFriendId(cs, userId, friendId);
    var backward := FindByUserIdAndFriendId(cs, friendId, userId);
    forall d | d in cs && Between(d, userId, friendId)
      ensures (forward.Unique? && d == forward.row) || (backward.Unique? && d == backward.row)
    {
      if d.userId == userId && d.friendId == friendId {
        assert !forward.Absent?;
      } else {
        assert !backward.Absent?;
      }
    }
  }

  /** removeFriend: both directions are looked up first, then whichever rows
      were found are deleted, whatever their status. A lookup matching
      several rows fails the call; otherwise it never fails. */
  function RemoveFriend(cs: seq<Contact>, userId: UserId, friendId: UserId): (r: Result<seq<Contact>, Error>)
    ensures r.Failure? <==> |PairRows(cs, userId, friendId)| >= 2 || |PairRows(cs, friendId, userId)| >= 2
    ensures r.Failure? ==> r.error == NonUniqueResult
    ensures r.Success? ==> forall c :: c in r.value <==> c in cs && Unlinked(cs, userId, friendId, c)
    ensures r.Success? ==> forall c :: (multiset(r.value)[c] ==
      if Unlinked(cs, userId, friendId, c) then multiset(cs)[c] else 0)
  {
    var forward := FindByUserIdAndFriendId(cs, userId, friendId);
    var backward := FindByUserIdAndFriendId(cs, friendId, userId);
    if forward.Ambiguous? || backward.Ambiguous? then Failure(NonUniqueResult)
    else
      var afterForward := DeleteFound(cs, forward);
      var result := DeleteFound(afterForward, backward);
      assert forall c :: multiset(result)[c] == (if Unlinked(cs, userId, friendId, c) then multiset(cs)[c] else 0)
                         && (c in result <==> c in cs && Unlinked(cs, userId, friendId, c)) by {
        forall c
          ensures multiset(result)[c] == (if Unlinked(cs, userId, friendId, c) then multiset(cs)[c] else 0)
          ensures c in result <==> c in cs && Unlinked(cs, userId, friendId, c)
        {
          UnlinkedIff(cs, userId, friendId, c);
        }
      }
      Success(result)
  }

  // ---------------------------------------------------------------- invariants

  /** Saving a row over an existing row with the same key and the same pair
      keeps every pair's row count, and so both invariants. */
  lemma SaveOverKeepsInvariants(cs: seq<Contact>, x: Contact, oldRow: Contact)
    requires UniqueIds(cs) && UniquePairs(cs)
    requires oldRow in cs && oldRow.id == x.id && oldRow.userId == x.userId && oldRow.friendId == x.friendId
    ensures forall a, b :: |PairRows(ReplaceById(cs, x), a, b)| == |PairRows(cs, a, b)|
    ensures UniqueIds(ReplaceById(cs, x)) && UniquePairs(ReplaceById(cs, x))
  {
    var r := ReplaceById(cs, x);
    forall a, b ensures |PairRows(r, a, b)| == |PairRows(cs, a, b)| {
      forall i | 0 <= i < |cs| ensures PairOf(a, b)(cs[i]) == PairOf(a, b)(r[i]) {
        if cs[i].id == x.id {
          assert cs[i] == oldRow;
        }
      }
      FilterPointwise(cs, r, PairOf(a, b));
    }
  }

  /** Appending a row with a fresh key for a pair that has no row keeps both
      invariants. */
  lemma AppendFreshKeepsInvariants(cs: seq<Contact>, x: Contact)
    requires UniqueIds(cs) && UniquePairs(cs)
    requires forall c :: c in cs ==> c.id != x.id
    requires forall c :: c in cs ==> !(c.userId == x.userId && c.friendId == x.friendId)
    ensures UniqueIds(cs + [x]) && UniquePairs(cs + [x])
  {
    forall a, b ensures |PairRows(cs + [x], a, b)| <= 1 {
      FilterAppend(cs, [x], PairOf(a, b));
      FilterSingleton(x, PairOf(a, b));
      if a == x.userId && b == x.friendId {
        FilterNone(cs, PairOf(a, b));
      } else {
        assert |PairRows(cs, a, b)| <= 1;
      }
    }
  }

  /** Deleting by key keeps both invariants. */
  lemma DeleteKeepsInvariants(cs: seq<Contact>, id: ContactId)
    requires UniqueIds(cs) && UniquePairs(cs)
    ensures UniqueIds(DeleteById(cs, id)) && UniquePairs(DeleteById(cs, id))
  {
    forall a, b ensures |PairRows(DeleteById(cs, id), a, b)| <= 1 {
      FilterOfFilter(cs, (c: Contact) => c.id != id, PairOf(a, b));
      assert |PairRows(cs, a, b)| <= 1;
    }
  }

  /** sendFriendRequest keeps unique keys and at most one row per ordered
      pair. */
  lemma SendKeepsInvariants(cs: seq<Contact>, users: seq<User>, senderId: UserId, email: string)
    requires UniqueIds(cs) && UniquePairs(cs)
    requires SendFriendRequest(cs, users, senderId, email).Success?
    ensures UniqueIds(SendFriendRequest(cs, users, senderId, email).value)
    ensures UniquePairs(SendFriendRequest(cs, users, senderId, email).value)
  {
    var r := SendFriendRequest(cs, users, senderId, email).value;
    assert r == cs + [r[|cs|]];
    AppendFreshKeepsInvariants(cs, r[|cs|]);
  }

  /** rejectFriendRequest keeps both invariants. */
  lemma RejectKeepsInvariants(cs: seq<Contact>, userId: UserId, requestId: ContactId)
    requires UniqueIds(cs) && UniquePairs(cs)
    requires RejectFriendRequest(cs, userId, requestId).Success?
    ensures UniqueIds(RejectFriendRequest(cs, userId, requestId).value)
    ensures UniquePairs(RejectFriendRequest(cs, userId, requestId).value)
  {
    DeleteKeepsInvariants(cs, requestId);
  }

  /** removeFriend keeps both invariants. */
  lemma RemoveFriendKeepsInvariants(cs: seq<Contact>, userId: UserId, friendId: UserId)
    requires UniqueIds(cs) && UniquePairs(cs)
    ensures RemoveFriend(cs, userId, friendId).Success?
    ensures UniqueIds(RemoveFriend(cs, userId, friendId).value)
    ensures UniquePairs(RemoveFriend(cs, userId, friendId).value)
  {
    var forward := FindByUserIdAndFriendId(cs, userId, friendId);
    var backward := FindByUserIdAndFriendId(cs, friendId, userId);
    UniquePairLookup(cs, userId, friendId);
    UniquePairLookup(cs, friendId, userId);
    var mid := DeleteFound(cs, forward);
    if forward.Unique? {
      DeleteKeepsInvariants(cs, forward.row.id);
    }
    if backward.Unique? {
      DeleteKeepsInvariants(mid, backward.row.id);
    }
  }

  /** The corrected accept keeps both invariants: the reciprocal row is saved
      over the pair's row when there is one and appended only when there is
      none. */
  /** In a table with unique keys and unique pairs, every request the guard
      lets through is accepted: the corrected accept never hits a duplicate
      reciprocal row. */
  lemma AcceptSucceeds(cs: seq<Contact>, userId: UserId, requestId: ContactId)
    requires UniqueIds(cs) && UniquePairs(cs)
    requires RequestGuard(cs, userId, requestId).Success?
    ensures Accept(cs, userId, requestId).Success?
  {
    var request := RequestGuard(cs, userId, requestId).value;
    SaveOverKeepsInvariants(cs, request.(status := Accepted), request);
  }

  lemma AcceptKeepsInvariants(cs: seq<Contact>, userId: UserId, requestId: ContactId)
    requires UniqueIds(cs) && UniquePairs(cs)
    requires Accept(cs, userId, requestId).Success?
    ensures UniqueIds(Accept(cs, userId, requestId).value)
    ensures UniquePairs(Accept(cs, userId, requestId).value)
  {
    var request := RequestGuard(cs, userId, requestId).value;
    var accepted := request.(status := Accepted);
    var updated := ReplaceById(cs, accepted);
    SaveOverKeepsInvariants(cs, accepted, request);
    match FindByUserIdAndFriendId(updated, userId, request.userId)
    case Absent =>
      AppendFreshKeepsInvariants(updated, Contact(NewContactId(updated), userId, request.userId, Accepted, true));
    case Unique(row) =>
      SaveOverKeepsInvariants(updated, row.(status := Accepted, active := true), row);
    case Ambiguous =>
  }

  /** Appending a row with a fresh key keeps at most one row per ordered
      pair exactly when its pair had no row. */
  lemma AppendPairRow(ts: seq<Contact>, x: Contact)
    requires UniqueIds(ts) && UniquePairs(ts)
    requires forall c :: c in ts ==> c.id != x.id
    ensures UniquePairs(ts + [x]) <==> |PairRows(ts, x.userId, x.friendId)| == 0
  {
    PairRowsAppend(ts, x, x.userId, x.friendId);
    if |PairRows(ts, x.userId, x.friendId)| == 0 {
      assert PairRows(ts, x.userId, x.friendId) == [];
      AppendFreshKeepsInvariants(ts, x);
    }
  }

  /** The accept as written keeps at most one row per ordered pair exactly
      when the acceptor had no row for the pair acceptor→sender beforehand. */
  lemma AcceptAsWrittenUniqueIff(cs: seq<Contact>, userId: UserId, requestId: ContactId)
    requires UniqueIds(cs) && UniquePairs(cs)
    requires AcceptAsWritten(cs, userId, requestId).Success?
    ensures var request := RequestGuard(cs, userId, requestId).value;
      UniquePairs(AcceptAsWritten(cs, userId, requestId).value) <==> |PairRows(cs, userId, request.userId)| == 0
  {
    var request := RequestGuard(cs, userId, requestId).value;
    var accepted := request.(status := Accepted);
    var updated := ReplaceById(cs, accepted);
    SaveOverKeepsInvariants(cs, accepted, request);
    var r := AcceptAsWritten(cs, userId, requestId).value;
    var x := r[|cs|];
    assert r == updated + [x];
    assert forall c :: c in updated ==> c.id != x.id;
    AppendPairRow(updated, x);
  }

  /** The contact table of the concrete run below: user 1 asked user 2 and
      user 2 asked user 1, which the one-directional duplicate check allows. */
  function CrossedRequests(): seq<Contact>
  {
    [Contact(1, 1, 2, Pending, true), Contact(2, 2, 1, Pending, true)]
  }

  /** Crossed requests satisfy both invariants. */
  lemma CrossedRequestsValid()
    ensures UniqueIds(CrossedRequests()) && UniquePairs(CrossedRequests())
  {
    var cs := CrossedRequests();
    forall a, b ensures |PairRows(cs, a, b)| <= 1 {
      assert cs == [cs[0]] + [cs[1]];
      FilterAppend([cs[0]], [cs[1]], PairOf(a, b));
      FilterSingleton(cs[0], PairOf(a, b));
      FilterSingleton(cs[1], PairOf(a, b));
    }
  }

  /** User 2 accepts user 1's request with the accept as written: the pair
      2→1 now has two rows, after which removing the friendship and a new
      request from 2 to 1 both fail. */
  lemma AcceptAsWrittenDuplicatesPair()
    ensures AcceptAsWritten(CrossedRequests(), 2, 1).Success?
    ensures var r := AcceptAsWritten(CrossedRequests(), 2, 1).value;
      && !UniquePairs(r)
      && RemoveFriend(r, 1, 2) == Failure(NonUniqueResult)
      && SendFriendRequest(r, [User(1, "a", "A"), User(2, "b", "B")], 2, "a") == Failure(NonUniqueResult)
  {
    var cs := CrossedRequests();
    var users := [User(1, "a", "A"), User(2, "b", "B")];
    assert FindUserByEmail(users, "a") == Some(users[0]);
    assert RequestGuard(cs, 2, 1) == Success(cs[0]);
    var r := AcceptAsWritten(cs, 2, 1).value;
    assert r[1] == cs[1] && r[2].userId == 2 && r[2].friendId == 1;
    FilterTwoIndices(r, PairOf(2, 1), 1, 2);
    assert |PairRows(r, 2, 1)| >= 2;
  }

  // ---------------------------------------------------------------- friendships

  /** After the corrected accept, with the request still active and both
      users on record, each user lists the other as a friend. */
  lemma AcceptMakesFriends(cs: seq<Contact>, users: seq<User>, userId: UserId, requestId: ContactId,
                           acceptor: User, sender: User)
    requires Accept(cs, userId, requestId).Success?
    requires RequestGuard(cs, userId, requestId).value.active
    requires FindUserById(users, userId) == Some(acceptor)
    requires FindUserById(users, RequestGuard(cs, userId, requestId).value.userId) == Some(sender)
    ensures var r := Accept(cs, userId, requestId).value;
      && acceptor in GetFriends(r, users, sender.id)
      && sender in GetFriends(r, users, acceptor.id)
  {
    var request := RequestGuard(cs, userId, requestId).value;
    var r := Accept(cs, userId, requestId).value;
    var c1 :| c1 in r && c1.id == requestId && c1.userId == request.userId && c1.friendId == userId
      && c1.status == Accepted && (request.active ==> c1.active);
    var c2 :| c2 in r && c2.userId == userId && c2.friendId == request.userId && c2.status == Accepted && c2.active;
  }

  /** Under one row per ordered pair, once a request is rejected its sender
      may ask the same recipient again: the duplicate check passes. */
  lemma RejectThenSend(cs: seq<Contact>, users: seq<User>, userId: UserId, requestId: ContactId, email: string)
    requires UniquePairs(cs)
    requires RejectFriendRequest(cs, userId, requestId).Success?
    requires FindUserByEmail(users, email).Some? && FindUserByEmail(users, email).value.id == userId
    ensures var request := RequestGuard(cs, userId, requestId).value;
      SendFriendRequest(RejectFriendRequest(cs, userId, requestId).value, users, request.userId, email).Success?
  {
    var request := RequestGuard(cs, userId, requestId).value;
    forall c | c in cs && c.userId == request.userId && c.friendId == userId ensures c.id == requestId {
      OnePairRow(cs, c, request);
    }
  }

  /** removeFriend leaves no row between the two users; so a second call
      changes nothing. */
  lemma RemoveFriendIdempotent(cs: seq<Contact>, userId: UserId, friendId: UserId)
    requires RemoveFriend(cs, userId, friendId).Success?
    ensures var r := RemoveFriend(cs, userId, friendId).value;
      && (forall c :: c in r ==> !Between(c, userId, friendId))
      && RemoveFriend(r, userId, friendId) == Success(r)
  {
    var r := RemoveFriend(cs, userId, friendId).value;
    forall c | c in r ensures !Between(c, userId, friendId) {
      assert c in cs;
    }
    assert FindByUserIdAndFriendId(r, userId, friendId).Absent?;
    assert FindByUserIdAndFriendId(r, friendId, userId).Absent?;
  }

  /** With unique keys, removeFriend deletes exactly the rows between the two
      users, of any status, and keeps every other row. */
  lemma RemoveFriendExactly(cs: seq<Contact>, userId: UserId, friendId: UserId)
    requires UniqueIds(cs)
    requires RemoveFriend(cs, userId, friendId).Success?
    ensures forall c :: c in RemoveFriend(cs, userId, friendId).value <==> c in cs && !Between(c, userId, friendId)
  {
    var r := RemoveFriend(cs, userId, friendId).value;
    forall c | c in cs && !Between(c, userId, friendId) ensures c in r {
      forall d | d in cs && Between(d, userId, friendId) ensures d.id != c.id {
      }
    }
  }

  /** Nothing stops a request to oneself: it is stored, and the accept as
      written saves it as ACCEPTED and adds a second 7→7 row. */
  lemma SelfRequest()
    ensures var users := [User(7, "me@example.org", "Me")];
      && SendFriendRequest([], users, 7, "me@example.org") == Success([Contact(0, 7, 7, Pending, true)])
      && AcceptAsWritten([Contact(0, 7, 7, Pending, true)], 7, 0) == Success(SelfTwice())
  {
    var users := [User(7, "me@example.org", "Me")];
    var pending := [Contact(0, 7, 7, Pending, true)];
    assert FindUserByEmail(users, "me@example.org") == Some(users[0]);
    assert RequestGuard(pending, 7, 0) == Success(pending[0]);
    var accepted := pending[0].(status := Accepted);
    assert ReplaceById(pending, accepted) == [accepted];
    assert NewContactId(pending) == 1;
    assert [accepted] + [Contact(1, 7, 7, Accepted, true)] == SelfTwice();
  }

  /** The table the accept as written leaves after a self-request. */
  function SelfTwice(): seq<Contact>
  {
    [Contact(0, 7, 7, Accepted, true), Contact(1, 7, 7, Accepted, true)]
  }

  /** That table has two rows for the pair 7→7. */
  lemma SelfTwiceTwoRows()
    ensures !UniquePairs(SelfTwice())
  {
    var twice := SelfTwice();
    FilterPair(twice[0], twice[1], PairOf(7, 7));
    assert |PairRows(twice, 7, 7)| == 2;
  }

  /** Two ACCEPTED rows from a user to itself list that user twice. */
  lemma TwoSelfRowsListed(users: seq<User>, me: User)
    requires FindUserById(users, me.id) == Some(me)
    ensures GetFriends([Contact(0, me.id, me.id, Accepted, true), Contact(1, me.id, me.id, Accepted, true)], users, me.id)
         == [me, me]
  {
    TwoSelfRowsFriendIds(me.id);
    ResolveTwice(users, me);
  }

  /** Both self-rows are friend rows of the user, each naming the user. */
  lemma TwoSelfRowsFriendIds(id: UserId)
    ensures FriendIdsOf(FindFriendsByUserId([Contact(0, id, id, Accepted, true), Contact(1, id, id, Accepted, true)], id))
         == [id, id]
  {
    var twice := [Contact(0, id, id, Accepted, true), Contact(1, id, id, Accepted, true)];
    FilterPair(twice[0], twice[1], FriendRowOf(id));
    assert FindFriendsByUserId(twice, id) == twice;
  }

  /** An id listed twice resolves to its user twice. */
  lemma ResolveTwice(users: seq<User>, me: User)
    requires FindUserById(users, me.id) == Some(me)
    ensures ResolveUsers(users, [me.id, me.id]) == [me, me]
  {
    assert [me.id, me.id][1..] == [me.id];
    assert [me.id][1..] == [];
    assert ResolveUsers(users, [me.id]) == [me];
  }

  /** That table has two rows for the pair 7→7, and the user lists itself
      twice among its friends. */
  lemma SelfListedTwice()
    ensures !UniquePairs(SelfTwice())
    ensures GetFriends(SelfTwice(), [User(7, "me@example.org", "Me")], 7)
         == [User(7, "me@example.org", "Me"), User(7, "me@example.org", "Me")]
  {
    SelfTwiceTwoRows();
    var users := [User(7, "me@example.org", "Me")];
    assert FindUserById(users, 7) == Some(users[0]);
    TwoSelfRowsListed(users, users[0]);
  }

  /** With the corrected accept the self-request becomes one ACCEPTED 7→7
      row, and the user lists itself once. */
  lemma SelfRequestAccepted()
    ensures var users := [User(7, "me@example.org", "Me")];
      && Accept([Contact(0, 7, 7, Pending, true)], 7, 0) == Success([Contact(0, 7, 7, Accepted, true)])
      && GetFriends([Contact(0, 7, 7, Accepted, true)], users, 7) == [User(7, "me@example.org", "Me")]
  {
    var users := [User(7, "me@example.org", "Me")];
    var pending := [Contact(0, 7, 7, Pending, true)];
    var a0 := Contact(0, 7, 7, Accepted, true);
    assert RequestGuard(pending, 7, 0) == Success(pending[0]);
    assert ReplaceById(pending, a0) == [a0];
    FilterSingleton(a0, PairOf(7, 7));
    assert PairRows([a0], 7, 7) == [a0];
    assert ReplaceById([a0], a0) == [a0];
    assert FindUserById(users, 7) == Some(users[0]);
    OneSelfRowListed(users, users[0]);
  }

  /** One ACCEPTED row from a user to itself lists that user once. */
  lemma OneSelfRowListed(users: seq<User>, me: User)
    requires FindUserById(users, me.id) == Some(me)
    ensures GetFriends([Contact(0, me.id, me.id, Accepted, true)], users, me.id) == [me]
  {
    var row := Contact(0, me.id, me.id, Accepted, true);
    FilterSingleton(row, FriendRowOf(me.id));
    assert FindFriendsByUserId([row], me.id) == [row];
    assert FriendIdsOf([row]) == [me.id];
  }

  /** The accept as written also makes the two users friends: after it, with
      the request still active and both users on record, each lists the
      other. */
  lemma AcceptAsWrittenMakesFriends(cs: seq<Contact>, users: seq<User>, userId: UserId, requestId: ContactId,
                                    acceptor: User, sender: User)
    requires AcceptAsWritten(cs, userId, requestId).Success?
    requires RequestGuard(cs, userId, requestId).value.active
    requires FindUserById(users, userId) == Some(acceptor)
    requires FindUserById(users, RequestGuard(cs, userId, requestId).value.userId) == Some(sender)
    ensures var r := AcceptAsWritten(cs, userId, requestId).value;
      && acceptor in GetFriends(r, users, sender.id)
      && sender in GetFriends(r, users, acceptor.id)
  {
    var request := RequestGuard(cs, userId, requestId).value;
    var r := AcceptAsWritten(cs, userId, requestId).value;
    var k :| 0 <= k < |cs| && cs[k] == request;
    assert r[k] == request.(status := Accepted) && r[k] in r;
    assert r[|cs|] in r;
  }
}

=== FILE: MessageRepository.dfy ===
/** The message repository's five queries, as pure functions over the
    message table. Each WHERE clause is a filter; ORDER BY sentAt is a stable
    insertion sort (rows with equal timestamps keep table order, one of the
    orders the database may return). */
module MessageRepository {
  import opened Wrappers
  import opened Seqs
  import opened Domain

  datatype Order = Ascending | Descending

  /** `a` may be listed before `b` in `order` of sent time. */
  predicate InOrder(a: Message, b: Message, order: Order)
  {
    match order
    case Ascending => a.sentAt <= b.sentAt
    case Descending => a.sentAt >= b.sentAt
  }

  predicate SortedBy(ms: seq<Message>, order: Order)
  {
    forall i, j :: 0 <= i < j < |ms| ==> InOrder(ms[i], ms[j], order)
  }

  /** `a` may be listed before every message of `ms`. */
  predicate PrecedesAll(a: Message, ms: seq<Message>, order: Order)
  {
    forall x :: x in ms ==> InOrder(a, x, order)
  }

  lemma SortedCons(a: Message, ms: seq<Message>, order: Order)
    requires PrecedesAll(a, ms, order) && SortedBy(ms, order)
    ensures SortedBy([a] + ms, order)
  {
    forall i, j | 0 <= i < j < |[a] + ms|
      ensures InOrder(([a] + ms)[i], ([a] + ms)[j], order)
    {
      assert ([a] + ms)[j] == ms[j - 1];
      if i > 0 {
        assert ([a] + ms)[i] == ms[i - 1];
      } else {
        assert ms[j - 1] in ms;
      }
    }
  }

  lemma HeadPrecedesTail(ms: seq<Message>, order: Order)
    requires |ms| > 0 && SortedBy(ms, order)
    ensures PrecedesAll(ms[0], ms[1..], order)
  {
    forall x | x in ms[1..] ensures InOrder(ms[0], x, order) {
      var k :| 0 <= k < |ms[1..]| && ms[1..][k] == x;
      assert ms[k + 1] == x;
    }
  }

  /** Inserts `m` into sorted `ms` in front of the first message it may
      precede. */
  function Insert(m: Message, ms: seq<Message>, order: Order): (r: seq<Message>)
    requires SortedBy(ms, order)
    ensures SortedBy(r, order)
    ensures multiset(r) == multiset(ms) + multiset{m}
    decreases |ms|
  {
    if |ms| == 0 || InOrder(m, ms[0], order) then
      assert PrecedesAll(m, ms, order) by {
        if |ms| > 0 {
          HeadPrecedesTail(ms, order);
          assert ms == [ms[0]] + ms[1..];
        }
      }
      SortedCons(m, ms, order);
      [m] + ms
    else
      var rest := Insert(m, ms[1..], order);
      assert ms == [ms[0]] + ms[1..];
      HeadPrecedesTail(ms, order);
      assert PrecedesAll(ms[0], rest, order) by {
        forall x | x in rest ensures InOrder(ms[0], x, order) {
          assert x in multiset(rest);
        }
      }
      SortedCons(ms[0], rest, order);
      [ms[0]] + rest
  }

  /** `ms` ordered by sent time: a permutation of `ms` that is sorted. */
  function SortBySentAt(ms: seq<Message>, order: Order): (r: seq<Message>)
    ensures SortedBy(r, order)
    ensures multiset(r) == multiset(ms)
    ensures |r| == |ms|
    decreases |ms|
  {
    if |ms| == 0 then []
    else
      assert ms == [ms[0]] + ms[1..];
      Insert(ms[0], SortBySentAt(ms[1..], order), order)
  }

  predicate ActiveInRoom(m: Message, roomId: RoomId)
  {
    m.roomId == roomId && m.active
  }

  /** The room's active messages in table order (the WHERE clause shared by
      the paged query and the count query). */
  function RoomMessages(ms: seq<Message>, roomId: RoomId): (r: seq<Message>)
    ensures forall m :: m in r <==> m in ms && ActiveInRoom(m, roomId)
    ensures forall m :: multiset(r)[m] == if ActiveInRoom(m, roomId) then multiset(ms)[m] else 0
  {
    FilterCounts(ms, (m: Message) => ActiveInRoom(m, roomId));
    Filter(ms, (m: Message) => ActiveInRoom(m, roomId))
  }

  /** The room's active messages, newest first, before paging. */
  function NewestFirst(ms: seq<Message>, roomId: RoomId): (r: seq<Message>)
    ensures SortedBy(r, Descending)
    ensures forall m :: multiset(r)[m] == if ActiveInRoom(m, roomId) then multiset(ms)[m] else 0
    ensures forall m :: m in r <==> m in ms && ActiveInRoom(m, roomId)
  {
    var r := SortBySentAt(RoomMessages(ms, roomId), Descending);
    assert forall m :: m in r <==> m in multiset(r);
    r
  }

  /** countMessagesByRoomId: how many active messages the room holds. */
  function CountMessagesByRoomId(ms: seq<Message>, roomId: RoomId): (n: nat)
    ensures n <= |ms|
    ensures n == 0 <==> forall m :: m in ms ==> !ActiveInRoom(m, roomId)
  {
    var r := RoomMessages(ms, roomId);
    assert |r| > 0 ==> r[0] in r;
    |r|
  }

  /** findByRoomIdOrderBySentAtDesc with a page request: page `page` of the
      room's active messages, newest first, with the count query's total. */
  function FindByRoomIdOrderBySentAtDesc(ms: seq<Message>, roomId: RoomId, page: nat, size: nat): (r: Page<Message>)
    requires size >= 1
    ensures r.content == PageSlice(NewestFirst(ms, roomId), page, size)
    ensures |r.content| <= size
    ensures forall i :: 0 <= i < |r.content| ==> r.content[i] in ms && ActiveInRoom(r.content[i], roomId)
    ensures SortedBy(r.content, Descending)
    ensures r.number == page && r.size == size
    ensures r.totalElements == CountMessagesByRoomId(ms, roomId)
    ensures r.totalPages == TotalPages(r.totalElements, size)
    ensures r.totalPages * size >= r.totalElements
    ensures r.totalPages > 0 ==> (r.totalPages - 1) * size < r.totalElements
  {
    var all := NewestFirst(ms, roomId);
    var total := CountMessagesByRoomId(ms, roomId);
    var content := PageSlice(all, page, size);
    PageOfSorted(all, page, size, Descending);
    Page(content, page, size, total, TotalPages(total, size))
  }

  /** A page of a sorted sequence is sorted and holds only its elements. */
  lemma PageOfSorted(s: seq<Message>, page: nat, size: nat, order: Order)
    requires size >= 1 && SortedBy(s, order)
    ensures SortedBy(PageSlice(s, page, size), order)
    ensures forall x :: x in PageSlice(s, page, size) ==> x in s
  {
    var r := PageSlice(s, page, size);
    var lo := page * size;
    assert forall i :: 0 <= i < |r| ==> lo + i < |s| && r[i] == s[lo + i];
    forall i, j | 0 <= i < j < |r| ensures InOrder(r[i], r[j], order) {
      assert r[i] == s[lo + i] && r[j] == s[lo + j];
    }
    forall x | x in r ensures x in s {
      var k :| 0 <= k < |r| && r[k] == x;
      assert s[lo + k] == x;
    }
  }

  /** Whether `keyword` occurs in `text`; LIKE '%keyword%' with the keyword
      taken literally. */
  predicate Contains(text: string, keyword: string)
  {
    exists i :: 0 <= i <= |text| - |keyword| && OccursAt(text, keyword, i)
  }

  predicate OccursAt(text: string, keyword: string, i: int)
  {
    0 <= i <= |text| - |keyword| && text[i .. i + |keyword|] == keyword
  }

  /** searchMessagesInRoom: the room's active messages whose content
      contains the keyword. */
  function SearchMessagesInRoom(ms: seq<Message>, roomId: RoomId, keyword: string): (r: seq<Message>)
    ensures forall m :: m in r <==> m in ms && ActiveInRoom(m, roomId) && Contains(m.content, keyword)
    ensures forall m :: multiset(r)[m] == if ActiveInRoom(m, roomId) && Contains(m.content, keyword) then multiset(ms)[m] else 0
  {
    FilterCounts(ms, (m: Message) => ActiveInRoom(m, roomId) && Contains(m.content, keyword));
    Filter(ms, (m: Message) => ActiveInRoom(m, roomId) && Contains(m.content, keyword))
  }

  /** findBySenderIdAndIsActiveTrue: every active message of the sender, in
      any room. */
  function FindBySenderIdAndIsActiveTrue(ms: seq<Message>, senderId: UserId): (r: seq<Message>)
    ensures forall m :: m in r <==> m in ms && m.senderId == senderId && m.active
    ensures forall m :: multiset(r)[m] == if m.senderId == senderId && m.active then multiset(ms)[m] else 0
  {
    FilterCounts(ms, (m: Message) => m.senderId == senderId && m.active);
    Filter(ms, (m: Message) => m.senderId == senderId && m.active)
  }

  /** findRecentMessages: the room's active messages sent at or after
      `since`, oldest first. */
  function FindRecentMessages(ms: seq<Message>, roomId: RoomId, since: int): (r: seq<Message>)
    ensures SortedBy(r, Ascending)
    ensures forall m :: m in r <==> m in ms && ActiveInRoom(m, roomId) && m.sentAt >= since
    ensures forall m :: multiset(r)[m] == if ActiveInRoom(m, roomId) && m.sentAt >= since then multiset(ms)[m] else 0
  {
    var recent := (m: Message) => ActiveInRoom(m, roomId) && m.sentAt >= since;
    FilterCounts(ms, recent);
    var r := SortBySentAt(Filter(ms, recent), Ascending);
    assert forall m :: m in r <==> m in multiset(r);
    r
  }

  /** Pages 0 .. n-1 of the room's paged query, concatenated. */
  function PagesOfRoom(ms: seq<Message>, roomId: RoomId, size: nat, n: nat): seq<Message>
    requires size >= 1
  {
    if n == 0 then [] else PagesOfRoom(ms, roomId, size, n - 1) + FindByRoomIdOrderBySentAtDesc(ms, roomId, n - 1, size).content
  }

  /** Reading every page of the room in order yields each active message of
      the room exactly once, newest first, and the page count is the one the
      first page reports. */
  lemma {:induction false} AllPagesOfRoom(ms: seq<Message>, roomId: RoomId, size: nat)
    requires size >= 1
    ensures var n := FindByRoomIdOrderBySentAtDesc(ms, roomId, 0, size).totalPages;
      var all := PagesOfRoom(ms, roomId, size, n);
      && SortedBy(all, Descending)
      && multiset(all) == multiset(RoomMessages(ms, roomId))
  {
    var n := FindByRoomIdOrderBySentAtDesc(ms, roomId, 0, size).totalPages;
    var sorted := NewestFirst(ms, roomId);
    PagesOfRoomAreSlices(ms, roomId, size, n);
    AllPages(sorted, size);
    assert multiset(sorted) == multiset(RoomMessages(ms, roomId));
  }

  lemma {:induction false} PagesOfRoomAreSlices(ms: seq<Message>, roomId: RoomId, size: nat, n: nat)
    requires size >= 1
    ensures PagesOfRoom(ms, roomId, size, n) == Pages(NewestFirst(ms, roomId), size, n)
  {
    if n > 0 {
      PagesOfRoomAreSlices(ms, roomId, size, n - 1);
    }
  }

  /** Storing one more message raises the room's count by one exactly when
      that message is active and belongs to the room. */
  lemma CountAfterInsert(ms: seq<Message>, m: Message, roomId: RoomId)
    ensures CountMessagesByRoomId(ms + [m], roomId)
         == CountMessagesByRoomId(ms, roomId) + (if ActiveInRoom(m, roomId) then 1 else 0)
  {
    FilterAppend(ms, [m], (x: Message) => ActiveInRoom(x, roomId));
  }
}

=== FILE: Seqs.dfy ===
/** Sequence helpers shared by the repository queries: the WHERE clause as a
    filter, and the LIMIT/OFFSET slicing of a paged query. */
module Seqs {
  import opened Wrappers

  /** The elements of `s` that satisfy `p`, in their original order, each
      kept as often as it occurs. */
  function Filter<T(!new)>(s: seq<T>, p: T -> bool): (r: seq<T>)
    ensures |r| <= |s|
    ensures forall x :: x in r <==> x in s && p(x)
    decreases |s|
  {
    if |s| == 0 then []
    else
      assert s == [s[0]] + s[1..];
      (if p(s[0]) then [s[0]] else []) + Filter(s[1..], p)
  }

  /** Filtering keeps every matching element as often as it occurs and
      drops every other one. */
  lemma {:induction false} FilterCounts<T(!new)>(s: seq<T>, p: T -> bool)
    ensures forall x :: multiset(Filter(s, p))[x] == if p(x) then multiset(s)[x] else 0
    decreases |s|
  {
    if |s| > 0 {
      assert s == [s[0]] + s[1..];
      FilterCounts(s[1..], p);
    }
  }

  /** Filtering distributes over concatenation: appending rows to a table
      appends their matches to every query result. */
  lemma {:induction false} FilterAppend<T(!new)>(a: seq<T>, b: seq<T>, p: T -> bool)
    ensures Filter(a + b, p) == Filter(a, p) + Filter(b, p)
    decreases |a|
  {
    if |a| == 0 {
      assert a + b == b;
    } else {
      assert (a + b)[0] == a[0];
      assert (a + b)[1..] == a[1..] + b;
      FilterAppend(a[1..], b, p);
    }
  }

  /** A one-element sequence keeps its element exactly when it matches. */
  lemma FilterSingleton<T(!new)>(x: T, p: T -> bool)
    ensures Filter([x], p) == if p(x) then [x] else []
  {
    assert [x][1..] == [];
  }

  /** Nothing matches in a sequence whose elements all fail `p`. */
  lemma {:induction false} FilterNone<T(!new)>(s: seq<T>, p: T -> bool)
    requires forall x :: x in s ==> !p(x)
    ensures Filter(s, p) == []
    decreases |s|
  {
    if |s| > 0 {
      assert s[0] in s;
      FilterNone(s[1..], p);
    }
  }

  /** Filtering a sequence whose elements all match keeps it whole. */
  lemma {:induction false} FilterAll<T(!new)>(s: seq<T>, p: T -> bool)
    requires forall x :: x in s ==> p(x)
    ensures Filter(s, p) == s
    decreases |s|
  {
    if |s| > 0 {
      assert s[0] in s;
      FilterAll(s[1..], p);
      assert s == [s[0]] + s[1..];
    }
  }

  /** Two sequences that agree, position by position, on whether `p` holds
      have as many matches. */
  lemma {:induction false} FilterPointwise<T(!new)>(s: seq<T>, t: seq<T>, p: T -> bool)
    requires |s| == |t|
    requires forall i :: 0 <= i < |s| ==> p(s[i]) == p(t[i])
    ensures |Filter(s, p)| == |Filter(t, p)|
    decreases |s|
  {
    if |s| > 0 {
      assert p(s[0]) == p(t[0]);
      assert forall i :: 0 <= i < |s[1..]| ==> s[1..][i] == s[i + 1] && t[1..][i] == t[i + 1];
      FilterPointwise(s[1..], t[1..], p);
    }
  }

  /** Filtering first by `q` cannot add matches of `p`. */
  lemma {:induction false} FilterOfFilter<T(!new)>(s: seq<T>, q: T -> bool, p: T -> bool)
    ensures |Filter(Filter(s, q), p)| <= |Filter(s, p)|
    decreases |s|
  {
    if |s| > 0 {
      var head := if q(s[0]) then [s[0]] else [];
      FilterAppend(head, Filter(s[1..], q), p);
      FilterSingleton(s[0], p);
      FilterOfFilter(s[1..], q, p);
    }
  }

  /** Filtering a two-element sequence keeps each element that matches. */
  lemma FilterPair<T(!new)>(a: T, b: T, p: T -> bool)
    ensures Filter([a, b], p) == (if p(a) then [a] else []) + (if p(b) then [b] else [])
  {
    assert [a, b] == [a] + [b];
    FilterAppend([a], [b], p);
    FilterSingleton(a, p);
    FilterSingleton(b, p);
  }

  /** Two different positions that both satisfy `p` give the filtered
      sequence at least two elements. */
  lemma FilterTwoIndices<T(!new)>(s: seq<T>, p: T -> bool, i: nat, j: nat)
    requires i < j < |s|
    ensures p(s[i]) && p(s[j]) ==> |Filter(s, p)| >= 2
  {
    if p(s[i]) && p(s[j]) {
      assert s == s[..j] + s[j..];
      FilterAppend(s[..j], s[j..], p);
      assert s[..j][i] == s[i];
      assert s[i] in Filter(s[..j], p);
      assert s[j..][0] == s[j];
      assert s[j] in Filter(s[j..], p);
    }
  }

  /** When at most one element satisfies `p`, a position that does is the
      only one. */
  lemma FilterOneIndex<T(!new)>(s: seq<T>, p: T -> bool, i: nat)
    requires i < |s| && p(s[i]) && |Filter(s, p)| <= 1
    ensures forall j :: 0 <= j < |s| && j != i ==> !p(s[j])
  {
    forall j | 0 <= j < |s| && j != i
      ensures !p(s[j])
    {
      if i < j {
        FilterTwoIndices(s, p, i, j);
      } else {
        FilterTwoIndices(s, p, j, i);
      }
    }
  }

  /** Replacing one element changes the number of matches by what the old
      and the new element contribute. */
  lemma FilterUpdateCount<T(!new)>(s: seq<T>, p: T -> bool, i: nat, x: T)
    requires i < |s|
    ensures |Filter(s[i := x], p)| == |Filter(s, p)| - (if p(s[i]) then 1 else 0) + (if p(x) then 1 else 0)
  {
    assert s == s[..i] + [s[i]] + s[i + 1..];
    assert s[i := x] == s[..i] + [x] + s[i + 1..];
    FilterAppend(s[..i] + [s[i]], s[i + 1..], p);
    FilterAppend(s[..i], [s[i]], p);
    FilterAppend(s[..i] + [x], s[i + 1..], p);
    FilterAppend(s[..i], [x], p);
  }

  /** The occurrences of `x` in a non-empty sequence: those in its head and
      those in its tail. */
  lemma CountHead<T>(s: seq<T>, x: T)
    requires |s| > 0
    ensures multiset(s)[x] == (if s[0] == x then 1 else 0) + multiset(s[1..])[x]
  {
    assert s == [s[0]] + s[1..];
  }

  /** The position of the first element of `s` that satisfies `p`, or
      `|s|` when none does. */
  function FirstIndex<T>(s: seq<T>, p: T -> bool): (i: nat)
    ensures i <= |s|
    ensures forall j :: 0 <= j < i ==> !p(s[j])
    ensures i < |s| ==> p(s[i])
    decreases |s|
  {
    if |s| == 0 || p(s[0]) then 0 else 1 + FirstIndex(s[1..], p)
  }

  /** The first element of `s` that satisfies `p`, searching front to back:
      a lookup by a key that the table does not declare unique. */
  function FindFirst<T(==,!new)>(s: seq<T>, p: T -> bool): (r: Option<T>)
    ensures r.Some? ==> r.value in s && p(r.value)
    ensures r.None? <==> forall x :: x in s ==> !p(x)
    ensures r.Some? ==> exists i :: 0 <= i < |s| && s[i] == r.value && forall j :: 0 <= j < i ==> !p(s[j])
  {
    var i := FirstIndex(s, p);
    if i < |s| then Some(s[i]) else None
  }

  /** `f` applied to each element, in order. */
  function Map<T(!new), U(==,!new)>(s: seq<T>, f: T -> U): (r: seq<U>)
    ensures |r| == |s|
    ensures forall i :: 0 <= i < |s| ==> r[i] == f(s[i])
    ensures forall y :: y in r <==> exists x :: x in s && f(x) == y
  {
    var r := seq(|s|, i requires 0 <= i < |s| => f(s[i]));
    assert forall x :: x in s ==> f(x) in r by {
      forall x | x in s ensures f(x) in r {
        var k :| 0 <= k < |s| && s[k] == x;
        assert r[k] == f(x);
      }
    }
    r
  }

  function Min(a: int, b: int): int
  {
    if a <= b then a else b
  }

  /** Page number `page` of `size` elements each, as an offset/limit query
      returns it: elements from offset `page * size` on, at most `size` of
      them, and none once the offset passes the end. */
  function PageSlice<T>(s: seq<T>, page: nat, size: nat): (r: seq<T>)
    requires size >= 1
    ensures |r| <= size
    ensures page * size >= |s| ==> r == []
    ensures page * size < |s| ==> |r| == Min(size, |s| - page * size)
    ensures forall i :: 0 <= i < |r| ==> page * size + i < |s| && r[i] == s[page * size + i]
  {
    if page * size >= |s| then [] else s[page * size .. Min(page * size + size, |s|)]
  }

  /** The number of pages of `size` elements that `total` elements fill:
      enough pages to hold them all, and no page that would be empty. */
  function TotalPages(total: nat, size: nat): (n: nat)
    requires size >= 1
    ensures n * size >= total
    ensures n > 0 ==> (n - 1) * size < total
  {
    if total == 0 then 0
    else
      var q := (total - 1) / size;
      assert q * size + (total - 1) % size == total - 1;
      assert (q + 1) * size == q * size + size;
      q + 1
  }

  /** Pages 0 .. n-1 of `s`, concatenated in order. */
  function Pages<T>(s: seq<T>, size: nat, n: nat): seq<T>
    requires size >= 1
  {
    if n == 0 then [] else Pages(s, size, n - 1) + PageSlice(s, n - 1, size)
  }

  /** The first `n` pages are exactly the first `n * size` elements. */
  lemma {:induction false} PagesPrefix<T>(s: seq<T>, size: nat, n: nat)
    requires size >= 1
    ensures Pages(s, size, n) == s[..Min(n * size, |s|)]
  {
    if n > 0 {
      PagesPrefix(s, size, n - 1);
      var lo := (n - 1) * size;
      MulPred(n, size);
      SliceAfterPrefix(s, lo, size);
    }
  }

  /** The elements up to `lo` followed by the block of `size` at `lo` are
      the elements up to `lo + size`. */
  lemma SliceAfterPrefix<T>(s: seq<T>, lo: nat, size: nat)
    ensures s[..Min(lo, |s|)] + (if lo >= |s| then [] else s[lo .. Min(lo + size, |s|)])
         == s[..Min(lo + size, |s|)]
  {
    if lo < |s| {
      assert s[..lo] + s[lo .. Min(lo + size, |s|)] == s[..Min(lo + size, |s|)];
    }
  }

  lemma MulPred(n: nat, size: nat)
    requires n > 0
    ensures n * size == (n - 1) * size + size
  {
  }

  /** Concatenating every page in order reproduces the whole sequence, each
      element exactly once and in its place. */
  lemma AllPages<T>(s: seq<T>, size: nat)
    requires size >= 1
    ensures Pages(s, size, TotalPages(|s|, size)) == s
  {
    PagesPrefix(s, size, TotalPages(|s|, size));
  }
}

=== FILE: UserContactRepository.dfy ===
/** The contact repository's lookups, as pure functions over the table of
    directed contact rows. */
module UserContactRepository {
  import opened Wrappers
  import opened Seqs
  import opened Domain

  /** Whether a row is an active ACCEPTED row going out from the user. */
  function FriendRowOf(userId: UserId): Contact -> bool
  {
    (c: Contact) => c.userId == userId && c.status == Accepted && c.active
  }

  /** findFriendsByUserId: the caller's outgoing ACCEPTED rows that are
      active. */
  function FindFriendsByUserId(cs: seq<Contact>, userId: UserId): (r: seq<Contact>)
    ensures forall c :: c in r <==> c in cs && c.userId == userId && c.status == Accepted && c.active
    ensures forall c :: multiset(r)[c] == if c.userId == userId && c.status == Accepted && c.active then multiset(cs)[c] else 0
  {
    FilterCounts(cs, FriendRowOf(userId));
    Filter(cs, FriendRowOf(userId))
  }

  /** findPendingRequestsByUserId: the active PENDING rows addressed TO the
      user (selected by recipient, not by sender). */
  function FindPendingRequestsByUserId(cs: seq<Contact>, userId: UserId): (r: seq<Contact>)
    ensures forall c :: c in r <==> c in cs && c.friendId == userId && c.status == Pending && c.active
    ensures forall c :: multiset(r)[c] == if c.friendId == userId && c.status == Pending && c.active then multiset(cs)[c] else 0
  {
    FilterCounts(cs, (c: Contact) => c.friendId == userId && c.status == Pending && c.active);
    Filter(cs, (c: Contact) => c.friendId == userId && c.status == Pending && c.active)
  }

  /** findContactsByUserId: every active outgoing row, whatever its status. */
  function FindContactsByUserId(cs: seq<Contact>, userId: UserId): (r: seq<Contact>)
    ensures forall c :: c in r <==> c in cs && c.userId == userId && c.active
    ensures forall c :: multiset(r)[c] == if c.userId == userId && c.active then multiset(cs)[c] else 0
  {
    FilterCounts(cs, (c: Contact) => c.userId == userId && c.active);
    Filter(cs, (c: Contact) => c.userId == userId && c.active)
  }

  /** Whether a row is for the ordered pair userId→friendId. */
  function PairOf(userId: UserId, friendId: UserId): Contact -> bool
  {
    (c: Contact) => c.userId == userId && c.friendId == friendId
  }

  /** Every row for the ordered pair, of any status, active or not. */
  function PairRows(cs: seq<Contact>, userId: UserId, friendId: UserId): (r: seq<Contact>)
    ensures forall c :: c in r <==> c in cs && c.userId == userId && c.friendId == friendId
    ensures forall c :: multiset(r)[c] == if c.userId == userId && c.friendId == friendId then multiset(cs)[c] else 0
  {
    FilterCounts(cs, PairOf(userId, friendId));
    Filter(cs, PairOf(userId, friendId))
  }

  /** Appending a row adds one to its own pair's row count and leaves every
      other pair's count as it was. */
  lemma PairRowsAppend(cs: seq<Contact>, x: Contact, userId: UserId, friendId: UserId)
    ensures |PairRows(cs + [x], userId, friendId)| ==
      |PairRows(cs, userId, friendId)| + (if x.userId == userId && x.friendId == friendId then 1 else 0)
  {
    FilterAppend(cs, [x], PairOf(userId, friendId));
    FilterSingleton(x, PairOf(userId, friendId));
  }

  /** findByUserIdAndFriendId: the row for the ordered pair, with no status
      or active filter; several rows make the lookup fail. */
  function FindByUserIdAndFriendId(cs: seq<Contact>, userId: UserId, friendId: UserId): (r: Lookup<Contact>)
    ensures r.Absent? <==> forall c :: c in cs ==> !(c.userId == userId && c.friendId == friendId)
    ensures r.Unique? ==> r.row in cs && r.row.userId == userId && r.row.friendId == friendId
    ensures r.Unique? ==> forall c :: c in cs && c.userId == userId && c.friendId == friendId ==> c == r.row
    ensures r.Ambiguous? <==> |PairRows(cs, userId, friendId)| >= 2
  {
    var rows := PairRows(cs, userId, friendId);
    assert |rows| > 0 ==> rows[0] in rows;
    Single(rows)
  }

  /** Whether a row is an active row for the ordered pair userId→friendId. */
  function ActivePairOf(userId: UserId, friendId: UserId): Contact -> bool
  {
    (c: Contact) => c.userId == userId && c.friendId == friendId && c.active
  }

  /** findActiveContact: the active row for the ordered pair; several active
      rows make the lookup fail, however many inactive rows the pair has. */
  function FindActiveContact(cs: seq<Contact>, userId: UserId, friendId: UserId): (r: Lookup<Contact>)
    ensures r.Absent? <==> forall c :: c in cs ==> !(c.userId == userId && c.friendId == friendId && c.active)
    ensures r.Unique? ==> r.row in cs && r.row.userId == userId && r.row.friendId == friendId && r.row.active
    ensures r.Unique? ==> forall c :: c in cs && c.userId == userId && c.friendId == friendId && c.active ==> c == r.row
    ensures r.Ambiguous? <==> |Filter(cs, ActivePairOf(userId, friendId))| >= 2
  {
    var rows := Filter(cs, ActivePairOf(userId, friendId));
    assert |rows| > 0 ==> rows[0] in rows;
    FilterCounts(cs, ActivePairOf(userId, friendId));
    assert |rows| == 1 ==> forall c :: c in rows ==> c == rows[0] by {
      if |rows| == 1 {
        forall c | c in rows ensures c == rows[0] {
          var k :| 0 <= k < |rows| && rows[k] == c;
        }
      }
    }
    Single(rows)
  }

  /** findById: the row with that primary key. */
  function FindById(cs: seq<Contact>, id: ContactId): (r: Option<Contact>)
    ensures r.Some? ==> r.value in cs && r.value.id == id
    ensures r.None? <==> forall c :: c in cs ==> c.id != id
  {
    FindFirst(cs, (c: Contact) => c.id == id)
  }

  /** The primary key identifies a row: two rows with one id are the same
      row. */
  ghost predicate UniqueIds(cs: seq<Contact>)
  {
    forall c, d :: c in cs && d in cs && c.id == d.id ==> c == d
  }

  /** At most one row per ordered pair: the assumption behind the optional
      single-row result of findByUserIdAndFriendId. */
  ghost predicate UniquePairs(cs: seq<Contact>)
  {
    forall userId, friendId :: |PairRows(cs, userId, friendId)| <= 1
  }

  /** Where at most one row exists per pair, two rows of one ordered pair
      are the same row. */
  lemma OnePairRow(cs: seq<Contact>, c: Contact, d: Contact)
    requires UniquePairs(cs)
    requires c in cs && d in cs && c.userId == d.userId && c.friendId == d.friendId
    ensures c == d
  {
    var pair := PairRows(cs, c.userId, c.friendId);
    assert c in pair && d in pair;
    assert |pair| <= 1;
  }

  /** Where at most one row exists per pair, the pair lookup never fails. */
  lemma UniquePairLookup(cs: seq<Contact>, userId: UserId, friendId: UserId)
    requires UniquePairs(cs)
    ensures !FindByUserIdAndFriendId(cs, userId, friendId).Ambiguous?
  {
    assert |PairRows(cs, userId, friendId)| <= 1;
  }

  /** findActiveContact agrees with findByUserIdAndFriendId: when the pair
      has no row or one row, it yields that row if it is active and nothing
      otherwise. */
  lemma {:induction false} ActiveContactAgrees(cs: seq<Contact>, userId: UserId, friendId: UserId)
    requires !FindByUserIdAndFriendId(cs, userId, friendId).Ambiguous?
    ensures FindActiveContact(cs, userId, friendId) ==
      match FindByUserIdAndFriendId(cs, userId, friendId)
      case Unique(c) => if c.active then Unique(c) else Absent
      case _ => Absent
  {
    var pair := PairRows(cs, userId, friendId);
    var isActivePair := ActivePairOf(userId, friendId);
    var act := Filter(cs, isActivePair);
    FilterCounts(cs, isActivePair);
    match FindByUserIdAndFriendId(cs, userId, friendId)
    case Unique(c) =>
      assert |pair| == 1 && pair[0] == c;
      assert multiset(pair) == multiset{c};
      if c.active {
        assert multiset(act) == multiset(pair);
      } else {
        assert multiset(act) == multiset{};
      }
    case Absent =>
      assert multiset(act) == multiset{};
    case Ambiguous =>
  }
}

=== FILE: Wrappers.dfy ===
/** Option and Result wrappers, and the outcome of a repository query that
    promises at most one row. */
module Wrappers {

  datatype Option<+T> = None | Some(value: T)

  /** Either the value an operation computed or the error it raised. A
      transactional operation that fails carries no store: its caller keeps
      the store it had, which is what a rolled-back transaction leaves. */
  datatype Result<+R, +E> = Success(value: R) | Failure(error: E)

  /** What a repository method returning an optional single row yields: no
      row, exactly one row, or, when several rows match, the data-access
      layer's "incorrect result size" exception. */
  datatype Lookup<+T> = Absent | Unique(row: T) | Ambiguous

  /** The single-row view of a query's matching rows. */
  function Single<T>(rows: seq<T>): (r: Lookup<T>)
    ensures r.Absent? <==> |rows| == 0
    ensures r.Unique? <==> |rows| == 1
    ensures r.Ambiguous? <==> |rows| >= 2
    ensures r.Unique? ==> r.row == rows[0]
  {
    if |rows| == 0 then Absent
    else if |rows| == 1 then Unique(rows[0])
    else Ambiguous
  }
}
